=== FILE: README.md ===
# filestorage/storage.py in Dafny

This project models the storage layer of a Stable Diffusion web UI deployment.
That layer is the abstract `FileStorage` base class, its local pass-through backend
`PrivatizationFileStorage`, and the module-level `http_request` helper with its
`USER_AGENTS` pool. Every operation is a pure function over immutable data.

The world the code observes enters as parameters:
- what `os.path.isfile` / `os.path.isdir` answer;
- the outcome of each HTTP attempt (a response with its status, or an exception);
- each pass of the lock-polling loop (seconds elapsed, whether the target file
  exists, whether the retried lock succeeds);
- the directory listing a sweep sees;
- `random.randint(0, 10)`;
- the MD5 hex digest, as a function `md5: string -> string` that returns 32
  lower-case hex digits.

Side effects are returned as data: the copies, fetches, staging writes and moves
of `download`, and the lock events of `lock_download`.

Modules, one file each:

- `Results` (`results.dfy`): `Option` and `Result`.
- `Strings` (`strings.dfy`): the Python `str` operations used. These are `find`,
  `rfind`, `split`, `split(maxsplit=1)`, `strip`/`lstrip`/`rstrip`, `lower`, `upper`
  and `in`.
- `PosixPath` (`posix_path.dfy`): `basename`, `splitext`, `join` and `dirname` of
  `posixpath`.
- `Dicts` (`dicts.dfy`): `dict.update` from a sequence of pairs, where the last
  write wins.
- `UserAgents` (`user_agents.dfy`): the agent pool, both as written and as intended.
- `Http` (`http.dfy`): `http_request`. It covers header defaults, User-Agent
  injection, JSON encoding, folding the query string into the data, dispatch on
  the verb, and the three-attempt retry loop.
- `LockNames` (`lock_names.dfy`): `device_id`, `get_lock_key` and
  `get_lock_filename`, with parsers that read a key or path back.
- `FileLock` (`file_lock.dfy`): `acquire_flock` and `release_flock`, including
  the stale-lock sweep.
- `LockDownload` (`lock_download.dfy`): `lock_download` with both lock strategies.
- `Privatization` (`privatization.dfy`): `PrivatizationFileStorage`, which covers
  `name`, `download` with the `Content-Disposition` filename, `upload`,
  `upload_content` and `preview_url`.
- `StorageHelpers` (`storage_helpers.dfy`): `get_keyname`, `top_dir`, `mmie`, and
  the worker cap and executor choice of `multi_upload` / `multi_download`.

Points where the code's behaviour is easy to misread. The model follows the code
in each case:

- A response that is not ok (status 400 to 599) is retried, not returned at once.
  Only the third attempt's response is returned whatever its status. An exception
  escapes only from the third attempt. See `Http.RetryFrom`.
- A query item with no `=` makes `dict.update` raise. Such an item is not skipped.
  See `Http.QueryPairs`.
- A non-GET request with a JSON `Content-Type`, a non-empty body and a query string
  always raises. The body has already become text, and text has no `update`. See
  `Http.JsonBodyWithQueryRaises`.
- OPTIONS passes the data dict as keyword arguments and sends none of the prepared
  headers.
- `flocker=True` selects the distributed lock. `flocker=False` selects the
  advisory lock file.
- The sweep runs when `randint(0, 10) < 3`, which is 3 draws out of 11. It looks
  at every regular file in `models/Stable-diffusion`, whatever keyname released
  the lock.
- If `download` fetches a response that is not ok, it writes nothing and then
  moves a staging file that does not exist. That move fails. See
  `Privatization.NotOkResponseLeavesNoStaging`.
- A reference whose basename is empty (`http://host/`) stages at `tmp/`, which is
  the temporary directory itself. A non-ok response then moves that whole
  directory to `local_path` and `download` returns as if it had succeeded. An ok
  response fails, because `open` cannot write to a directory. See "## Findings".

## Model

| member | source | states |
|---|---|---|
| Strings.JoinSplit | filestorage/storage.py:287 | `split` on one separator loses nothing: joining the pieces gives back the string |
| Strings.SplitJoin | filestorage/storage.py:76 | splitting a join of separator-free pieces gives back the pieces, so `split` inverts `join` |
| Strings.Without | filestorage/storage.py:73 | deleting a set of characters keeps exactly the other characters and changes nothing when none occurs |
| Strings.Split | filestorage/storage.py:287 | `split` on one separator gives at least one piece, none holding the separator; two or more exactly when it occurs, one piece (the whole string) otherwise, and the first piece is everything before its first occurrence |
| Strings.SplitFirstTwo | filestorage/storage.py:342 | when the separator occurs, the string starts with the first piece, the separator and the second piece, and another separator follows whenever anything does |
| Strings.SplitOnce | filestorage/storage.py:76 | `split('=', maxsplit=1)` yields one or two pieces, two exactly when the separator occurs, the first free of it, and rejoining restores the item |
| Strings.Strip | filestorage/storage.py:287 | `strip` never lengthens the string and leaves no stripped character at either end |
| Strings.StripIsSlice | filestorage/storage.py:287 | `strip` returns a contiguous slice of the input: only stripped characters lie before it (the prefix it skips) and after it |
| Strings.StripKeeps | filestorage/storage.py:342 | every character of the input that is not a stripped one survives `strip` |
| Dicts.UpdateLastWins | filestorage/storage.py:76 | after `dict.update(pairs)` a key holds the value of the last pair naming it; keys no pair names keep their presence and value |
| Dicts.Update | filestorage/storage.py:76 | `dict.update` keeps every key already present and adds the key of every pair |
| PosixPath.SplitExt | filestorage/storage.py:291 | `splitext` cuts the path into two parts that concatenate back to it; the extension is empty or a dot followed by no further dot or separator |
| PosixPath.SplitExtRule | filestorage/storage.py:291 | the extension is non-empty exactly when the last `.` comes after the last `/` and the part of the name before that dot is not only dots; the stem then ends at that dot |
| PosixPath.ExtOfName | filestorage/storage.py:291 | a name ending in neither `.` nor `/`, followed by an extension, splits at exactly that extension |
| PosixPath.Basename | filestorage/storage.py:173 | `basename` is a suffix of the path holding no `/`, and a `/` precedes it whenever it is shorter than the path |
| PosixPath.Join | filestorage/storage.py:186 | `os.path.join` returns the second argument when it is absolute; otherwise it is the first and second concatenated, with one `/` inserted exactly when the first is non-empty and does not already end in `/` |
| PosixPath.DirnameOfChild | filestorage/storage.py:239 | the directory of `dir/name` is `dir` |
| PosixPath.Dirname | filestorage/storage.py:239 | `dirname` is a prefix of the path, empty when the path holds no `/`; otherwise it is non-empty and only separators lie between it and the last `/`; it ends in `/` only when it is the all-separator root before the last component |
| UserAgents.AsWrittenFusesFirstTwo | filestorage/storage.py:29-47 | as written the pool has 15 entries; the first is none of the agents written, and the agent on the second line can never be drawn |
| UserAgents.PoolOffersEachAgent | filestorage/storage.py:29-47 | the intended pool holds the 16 written agents, all distinct, each at its own index |
| UserAgents.DrawnAgentIsSent | filestorage/storage.py:82-83 | when the caller names no User-Agent, the agent drawn from the pool is the one sent |
| Http.MergeHeaders | filestorage/storage.py:51-58 | caller headers override the four defaults key by key; the defaults alone are used when no dict is given |
| Http.WithUserAgent | filestorage/storage.py:82-83 | a User-Agent is added only when absent; every existing header is kept |
| Http.CallerHeadersWin | filestorage/storage.py:51-83 | every caller header is sent as given, every default the caller did not name is sent, and a User-Agent is always sent |
| Http.UserAgentNotDefault | filestorage/storage.py:51-56 | no default header is a User-Agent |
| Http.EncodeBody | filestorage/storage.py:71-72 | the body becomes JSON text exactly when it is non-empty, the verb is not GET, and the Content-Type mentions json |
| Http.QueryPairs | filestorage/storage.py:76 | the query items become pairs exactly when every item has a `=`; each item is key `=` value, with no `=` in the key; otherwise the error names the first item without `=` |
| Http.FoldQuery | filestorage/storage.py:73-77 | without a query the URL and data pass unchanged; with one, the URL loses everything from its first `?`, a non-empty body that is not a dict cannot be updated and fails, and a folded body is a dict |
| Http.UrlQuery | filestorage/storage.py:73 | the query holds no `#`, no tab or line break, and is empty when the URL holds no `?` or its first `?` lies inside the fragment (the fragment is cut first) |
| Http.UrlQueryOf | filestorage/storage.py:73 | the query of `base?q#fragment`, with `?` and `#` absent from the base, is `q` with tabs and line breaks deleted |
| Http.QueryItems | filestorage/storage.py:76 | the query items are non-empty and hold no `&` |
| Http.NonEmpty | filestorage/storage.py:76 | the `if item` filter keeps exactly the non-empty pieces, and everything when none is empty |
| Http.NonEmptyAppend | filestorage/storage.py:76 | the filter keeps order: it distributes over concatenation |
| Http.QueryItemsOfJoin | filestorage/storage.py:76 | the items of an `&`-join of non-empty `&`-free items are those items |
| Http.QueryItemsOfUrl | filestorage/storage.py:73-76 | a URL `base?a&b&...` carries exactly the items `a`, `b`, ... as its query |
| Http.CutAtQuestion | filestorage/storage.py:77 | `url.split("?")[0]` is the prefix of the URL up to, not including, its first `?` |
| Http.CutAtQuestionOf | filestorage/storage.py:77 | cutting `base?rest` at its first `?` leaves `base` |
| Http.FalsyBodyFoldsAsEmptyForm | filestorage/storage.py:74-76 | with a query, an empty or absent body folds exactly as an empty dict does (`data or {}`) |
| Http.FoldQueryNeedsEquals | filestorage/storage.py:73-77 | with a non-empty query, folding into a form succeeds exactly when every item holds a `=` |
| Http.FoldQueryLastWins | filestorage/storage.py:73-77 | with a query that folds, each key takes the value of the last item naming it, other keys keep the body's value, and the URL is cut at `?` |
| Http.FoldQueryOfUrl | filestorage/storage.py:73-77 | folding the query of `base?a&b&...` into a form succeeds exactly when every item holds `=`, and the request then goes to `base` |
| Http.Dispatch | filestorage/storage.py:85-95 | the call kind follows the verb (GET, PUT, DELETE, OPTIONS, anything else POST); all but OPTIONS carry the prepared headers, `stream` and proxies unchanged; GET sends the data as params, PUT and POST as the body, DELETE none, and OPTIONS spreads the form fields (or nothing) as keyword arguments |
| Http.Prepare | filestorage/storage.py:57-95 | preparation fails exactly when folding the query into the encoded body fails, with the same error; otherwise it dispatches the upper-cased verb with the folded URL and data and the request options; the URL is unchanged without a query and cut at `?` with one; only GET passes `stream`; the headers sent are the merged headers plus a User-Agent |
| Http.RequestKwargs | filestorage/storage.py:60-70 | the options carry the headers with a User-Agent added, `stream` exactly for GET, and `proxies` exactly when a proxy is given |
| Http.CallerJsonEncodes | filestorage/storage.py:71-72 | a caller Content-Type mentioning json turns a non-empty non-GET body into JSON text |
| Http.JsonBodyWithQueryRaises | filestorage/storage.py:71-77 | a JSON-encoded body cannot take query parameters: preparation fails |
| Http.RetryFrom | filestorage/storage.py:79-101 | the loop stops at the first ok response; a response is returned early only when ok; it raises exactly when the third attempt raises and no earlier attempt was ok |
| Http.Retry | filestorage/storage.py:79-101 | from the first attempt: at most three attempts, and the returned response is the last attempt's |
| Http.Send | filestorage/storage.py:79-101 | every attempt makes the same call; the loop stops at the first ok response; it fails exactly when the third attempt raised and neither earlier attempt was ok; a non-ok response is returned only after three attempts |
| Http.IsOk | filestorage/storage.py:96 | `res.ok` holds exactly when the status is neither a client error (400-499) nor a server error (500-599) |
| Http.HttpRequest | filestorage/storage.py:50-101 | malformed queries or bodies fail before any attempt; when preparation succeeds the request is exactly the retry loop over the prepared call; a returned response is an attempt's own, and non-ok only after the third |
| Http.RetryScenarios | filestorage/storage.py:79-101 | two exceptions then a response return it after three attempts; three exceptions escape; a non-ok first response is retried |
| LockNames.DeviceId | filestorage/storage.py:124 | the device is the host name unless that is empty, then the host IP |
| LockNames.Hash8 | filestorage/storage.py:174-177 | the hash is the first eight characters of the hex digest of the keyname, so eight hex digits |
| LockNames.LockKey | filestorage/storage.py:172-178 | the key is 11 characters longer than device and basename together (the `:`, `[`, eight hash digits and `]`); its layout is stated by LockNames.LockKeyParses |
| LockNames.LockKeyParses | filestorage/storage.py:172-178 | a lock key starts with `device:` and reads back into the reference's basename and hash |
| LockNames.LockKeyScope | filestorage/storage.py:172-178 | two references share a distributed lock exactly when their basenames and hash prefixes agree |
| LockNames.StemHasNoSlash | filestorage/storage.py:181-182 | the stem of a reference's basename holds no separator |
| LockNames.LockFilename | filestorage/storage.py:180-186 | the lock file sits directly in `models/Stable-diffusion`, is named `stem[hash].lock`, has extension `.lock`, and parses back to stem and hash |
| LockNames.LockFileScope | filestorage/storage.py:180-186 | two references share a lock file exactly when their stems and hash prefixes agree |
| FileLock.WaitLoop | filestorage/storage.py:199-223 | the polling loop leaves only by timeout, target file or lock; it leaves at the first pass that allows it, and waits exactly when no pass does |
| FileLock.AcquireFlock | filestorage/storage.py:188-229 | an open failure, a first-try lock, a non-blocking refusal and a timeout are told apart; a handle without waiting comes only from a first try that took the lock; a blocking call whose first try failed is exactly the polling loop under the effective timeout |
| FileLock.EffectiveTimeout | filestorage/storage.py:192-207 | `None` becomes `-1`; the deadline is enforced exactly when a positive timeout was given, and it is that timeout |
| FileLock.PositiveTimeoutEndsWait | filestorage/storage.py:199-207 | with a positive timeout and sleeps of at least two seconds, the loop ends within `timeout / 2 + 1` passes |
| FileLock.NoTimeoutWaitsForever | filestorage/storage.py:192-223 | with no timeout, a lock never granted and no target file, the loop never ends |
| FileLock.FateOfStale | filestorage/storage.py:243-252 | removal is attempted exactly on lock files older than eight hours, succeeds exactly where allowed, and non-lock files are skipped |
| FileLock.Sweep | filestorage/storage.py:241-252 | every entry of the listing gets the fate it would get alone |
| FileLock.SweepRemovesOnlyStale | filestorage/storage.py:241-252 | over a whole listing, removed exactly where stale and removable, attempted exactly where stale |
| FileLock.ReleaseFlock | filestorage/storage.py:231-252 | without a handle nothing happens; otherwise the lock is released, and the lock directory is swept exactly when a keyname is given and the draw is below 3 |
| FileLock.SweepDirectoryIsLockDir | filestorage/storage.py:238-239 | the directory swept is `models/Stable-diffusion` for every keyname |
| FileLock.OwnLockFileIsSweepable | filestorage/storage.py:241-245 | every keyname's own lock file passes the sweep's `.lock` test |
| LockDownload.LockDownload | filestorage/storage.py:134-156 | an existing local or remote file returns at once; otherwise `flocker=True` is exactly one call of the distributed lock under the device-scoped key, and `flocker=False` the file-lock run on the reference's lock file |
| LockDownload.DistributedRun | filestorage/storage.py:139-144 | the distributed lock is called once and its result or exception is passed through |
| LockDownload.OnlyFastPathsLeaveNoTrace | filestorage/storage.py:134-156 | a run takes no lock exactly when a local or remote file already exists |
| LockDownload.DownloadRunsOnlyUnderFileLock | filestorage/storage.py:139-144 | with `flocker=True` the download never runs in this process |
| LockDownload.FileLockRun | filestorage/storage.py:145-156 | acquire comes first; it blocks exactly while acquire waits; a failed acquire raises; with a handle, the re-check finds the local file and skips the download, or the download runs and its result or exception is passed through; on every exit the release of the acquired handle comes last, exactly once |
| LockDownload.FailedDownloadReleases | filestorage/storage.py:145-156 | a download that raises still unlocks the lock file it ran under |
| LockDownload.FileLockReleasesAfterFailure | filestorage/storage.py:145-156 | in the file-lock run, a download that raises under a held lock raises its failure and the last event unlocks |
| Privatization.ParamPair | filestorage/storage.py:342 | a stripped `key=value` item yields a key and a value without `=` |
| Privatization.ParamPairReadsFront | filestorage/storage.py:342 | the pair is read from the front of the stripped item: key, `=`, value, then another `=` or the end (`split("=")[:2]`) |
| Privatization.PairAtFrontUnique | filestorage/storage.py:342 | at most one pair can be read from the front of a string, so that reading is well defined |
| Privatization.ParamPairRoundTrip | filestorage/storage.py:342 | an item `k=v`, with no `=` in `k` or `v` and no whitespace at its ends, reads back as `(k, v)` |
| Privatization.WithEqualsKeeps | filestorage/storage.py:342 | the `;`-items kept are exactly those holding `=` |
| Privatization.WithEqualsSnoc | filestorage/storage.py:342 | the filter keeps the items' order: appending an item appends it to the kept items exactly when it holds `=` |
| Privatization.DispositionPairs | filestorage/storage.py:341-342 | there is one pair per `;`-item holding `=`, and no key or value holds `=` |
| Privatization.DispositionPairsInOrder | filestorage/storage.py:341-342 | the i-th pair is read from the i-th item holding `=` |
| Privatization.DispositionFilename | filestorage/storage.py:339-344 | there is a filename exactly when some parameter is named `filename`; it is the value of the last one with double quotes stripped, so it holds no `=` and has no double quote at either end |
| Privatization.FilenameParam | filestorage/storage.py:341-344 | over the parsed pairs, `dict(...)` keeps the last `filename`, and `.strip('"')` gives the name; there is one exactly when some pair is named `filename` |
| Privatization.StagingPathInTmp | filestorage/storage.py:332-333 | the staging file is `tmp/` plus the reference's basename, and keeps that basename |
| Privatization.FinalNamePrefersDisposition | filestorage/storage.py:332-344 | the saved name is the reference's basename unless the response carries a Content-Disposition with a `filename` parameter, then that parameter with quotes stripped |
| Privatization.Deliver | filestorage/storage.py:346-356 | an ok response is fetched, written to the staging file and moved to `local_path`, or into it under the chosen name when it is a directory |
| Privatization.FetchInto | filestorage/storage.py:332-357 | the fetch comes first; a request that raises stops there with its error; with a basename, the result is ok exactly when the response is ok and the staging file is written exactly then; with an empty basename it is the other way round, and an ok result is the move of `tmp/` to `local_path`; a result other than `local_path` means a directory target |
| Privatization.Download | filestorage/storage.py:319-357 | an existing local file returns at once; an existing source is copied; a reference without `http` is refused with no side effect; an existing staging file is moved; otherwise the file is fetched |
| Privatization.DispositionOnlyNamesDirectoryTargets | filestorage/storage.py:339-355 | for an ok response the Content-Disposition name is used only inside a directory target; at the `tmp` directory the write fails |
| Privatization.NotOkResponseLeavesNoStaging | filestorage/storage.py:336-357 | a response that is not ok writes nothing and the move still runs; it fails for a reference with a basename, and for an empty basename moves `tmp/` and returns `local_path` |
| Privatization.StagingAtTmpDir | filestorage/storage.py:332-333 | with an empty basename the staging path is `tmp/`, the directory itself |
| Privatization.NotOkUrlWithoutBasenameSucceeds | filestorage/storage.py:319-357 | `download("http://example.com/", local_path)` with no local, remote or staging file, answered 404 on all three attempts, returns `local_path` after moving `tmp/` there |
| Privatization.FetchIntoIntended | filestorage/storage.py:332-357 | corrected: an ok result only ever follows an ok response, and at the `tmp` directory nothing is moved |
| Privatization.IntendedAgreesWithBasename | filestorage/storage.py:332-357 | for a reference with a basename the corrected fetch is the code's own |
| Privatization.Upload | filestorage/storage.py:359-363 | a copy is made and the destination returned exactly when the two paths differ |
| Privatization.UploadThenDownloadCopiesBack | filestorage/storage.py:319-371 | an uploaded file downloads back through its preview URL by a local copy, and the file copied is the upload's destination |
| StorageHelpers.GetKeyname | filestorage/storage.py:278-281 | a path under the bucket loses the bucket prefix and the `/` after it; other paths are unchanged |
| StorageHelpers.KeynameRoundTrip | filestorage/storage.py:278-281 | a key stored under a bucket, with or without a `/`, comes back from its full path |
| StorageHelpers.TopDir | filestorage/storage.py:286-288 | the result is the first component of the stripped path: a separator-free prefix followed by `/` or the end |
| StorageHelpers.TopDirOfChild | filestorage/storage.py:286-288 | the top directory of `a/rest` is `a` |
| StorageHelpers.Mmie | filestorage/storage.py:290-305 | the type is the table's entry for the lower-cased extension, or `text/plain` |
| StorageHelpers.ExtLower | filestorage/storage.py:291-292 | lower-casing a path lower-cases its extension and nothing more |
| StorageHelpers.MmieCaseInsensitive | filestorage/storage.py:290-305 | names equal up to case get the same type |
| StorageHelpers.MmieOfName | filestorage/storage.py:290-305 | `stem + e` gets the type of its lower-cased extension `e`, or `text/plain` |
| StorageHelpers.WorkerCount | filestorage/storage.py:256-257 | workers are at most 4 and at most the CPU count, and equal one of them |
| StorageHelpers.MultiUpload | filestorage/storage.py:254-259 | an empty list does nothing; otherwise every pair is uploaded by the capped pool |
| StorageHelpers.MultiDownload | filestorage/storage.py:261-269 | an empty list does nothing; the executor is `lock_download` with the given expiry and lock kind exactly when locking is asked, otherwise `download` |

## Left out

- File contents, `shutil.copy` / `shutil.move`, `open` and writing: each appears
  as a step that names its paths. Whether the step itself fails is not modelled.
  The exceptions are the move of a staging file that was never written, and
  `open` of the staging path when that path is the `tmp` directory.
- Privatization.Download: `stagingIsFile` is taken as observed. For an empty
  basename it is `isfile('tmp/')`, which is false in any real run, and the model
  does not force that.
- Privatization.FetchInto: an ok result does not always mean the staging file
  was written. For an empty basename the code moves the `tmp`
  directory itself (see "## Findings"). `Privatization.Download` follows the code
  and uses this member; `Privatization.FetchIntoIntended` is the corrected
  definition.
- The HTTP client: TLS (`verify=False`), cookies, timeouts, proxies beyond being
  passed along, streaming with `iter_content`, and response header case
  insensitivity. Each attempt is an oracle outcome.
- `random.choice(USER_AGENTS)`: the drawn agent is a parameter of
  `Http.HttpRequest`. `UserAgents.DrawnAgentIsSent` connects a draw from
  `UserAgents.Pool` to the header that is sent. The request itself does not
  require the agent to come from the pool.
- Http.HttpRequest: the caller's data dict is updated in place by the query's
  pairs. The model returns the updated data and does not model that aliasing.
- Http.Dispatch: an OPTIONS call records the data dict it would spread as keyword
  arguments. Whether `requests.options` accepts those names is not modelled.
- Http.Prepare: `headers` is either a dict or absent. The code ignores a truthy
  value that is not a dict, and such a value cannot be expressed in the model.
- `print`, `logger` calls and `time.sleep`: they have no effect on results. The
  sleeps and clock readings of `acquire_flock` are folded into the observed
  elapsed seconds of each pass.
- FileLock.AcquireFlock: the re-open `open(...) if f is None else f` is not
  modelled. `f` cannot be `None` at that point.
- FileLock.AcquireFlock: after the target file appears, the sleep of
  `int(now - atime + 6)` seconds and `os.popen('touch ...')` are not modelled.
- The distributed lock `dist_locker` (`tools.redis`): its call is one event and its
  result is an oracle. Its own locking semantics are not part of this model.
- `MultiThreadWorker`: concurrency and thread scheduling are not modelled. The
  model produces the plan of pairs, executor and worker count.
- `download_dir` (lines 271-276), `close`, `__enter__` / `__exit__`, the abstract
  methods and `FileLocker`: these are resource handling with no logic to state.
- Lower/upper-casing uses ASCII letters only. Python's full Unicode case mapping
  is not modelled.
- Http.UrlQuery: the `ValueError` paths of `urlsplit` are not modelled. It raises
  for an unbalanced `[` or `]` in the network location ("Invalid IPv6 URL") and
  for a network location that NFKC normalisation changes. `http_request` would
  then raise at line 73, before any attempt. The model reads the query as the
  text after the first `?` and before the first `#`, with tab, carriage return
  and line feed deleted anywhere in it, as `urlsplit` deletes them. Its
  stripping of leading C0 control characters and spaces needs no model, because
  it never reaches the query. Trailing ones are kept.
- Privatization.UploadContent: the content is written at the path and the path is
  returned. There is no further contract beyond the pair it returns.
- Privatization.PreviewUrl: it is the identity. Its only contract is
  `Privatization.UploadThenDownloadCopiesBack`.
- Privatization.Name: the backend's name is the constant `default`. No contract
  applies.
- `modules/crontab_clear_tmp.py` and `handlers/extension/posex.py` are callers.
  They are not part of this model.

## Findings

| source | as written | input that shows it | evidently intended | confidence | as-written member | corrected member |
|---|---|---|---|---|---|---|
| filestorage/storage.py:30-31 | the first `USER_AGENTS` literal has no trailing comma, so Python joins it with the second into one string, and the list holds 15 entries | `USER_AGENTS[0]` is the two Chrome 22 / Chrome 20 agents concatenated; the agent on line 31 is never chosen | 16 separate agents, one per line | high (not executed) | UserAgents.AsWrittenFusesFirstTwo | UserAgents.PoolOffersEachAgent |
| filestorage/storage.py:332-357 | the staging path is `os.path.join('tmp', basename)`, and `shutil.move` runs even after a non-ok response | `http://example.com/` answered 404: the basename is empty, the staging path is `tmp/` (the directory the constructor creates), so the whole `tmp` directory is moved to `local_path` and `download` returns `local_path` as a success | a non-ok response never yields a result, and the temporary directory is never moved | medium (not executed) | Privatization.NotOkUrlWithoutBasenameSucceeds | Privatization.FetchIntoIntended |

=== FILE: dicts.dfy ===
/** Python `dict.update` over a sequence of key/value pairs, and its last-write-wins reading. */
module Dicts {
  import opened Results

  /** `m.update(pairs)` applied left to right (also `dict(pairs)` when `m` is empty). */
  function Update<K, V>(m: map<K, V>, pairs: seq<(K, V)>): (r: map<K, V>)
    ensures forall k :: k in m ==> k in r
    ensures forall i :: 0 <= i < |pairs| ==> pairs[i].0 in r
    decreases |pairs|
  {
    if |pairs| == 0 then m else Update(m[pairs[0].0 := pairs[0].1], pairs[1..])
  }

  /** The value of the last pair whose key is `k`, if any. */
  function LastValue<K(==), V>(pairs: seq<(K, V)>, k: K): (r: Option<V>)
    ensures r.None? <==> forall i :: 0 <= i < |pairs| ==> pairs[i].0 != k
    ensures r.Some? ==> exists i :: 0 <= i < |pairs| && pairs[i] == (k, r.value) && LastWith(pairs, k, i)
    decreases |pairs|
  {
    if |pairs| == 0 then None
    else if pairs[|pairs| - 1].0 == k then Some(pairs[|pairs| - 1].1)
    else
      var r := LastValue(pairs[..|pairs| - 1], k);
      assert forall i :: 0 <= i < |pairs| - 1 ==> pairs[..|pairs| - 1][i] == pairs[i];
      r
  }

  /** No pair after position `i` has key `k`. */
  predicate LastWith<K(==), V>(pairs: seq<(K, V)>, k: K, i: int)
    requires 0 <= i < |pairs|
  {
    forall j :: i < j < |pairs| ==> pairs[j].0 != k
  }

  lemma {:induction false} UpdateSnoc<K, V>(m: map<K, V>, pairs: seq<(K, V)>, p: (K, V))
    ensures Update(m, pairs + [p]) == Update(m, pairs)[p.0 := p.1]
    decreases |pairs|
  {
    if |pairs| == 0 {
      assert pairs + [p] == [p];
    } else {
      assert (pairs + [p])[1..] == pairs[1..] + [p];
      UpdateSnoc(m[pairs[0].0 := pairs[0].1], pairs[1..], p);
    }
  }

  /**
   * After `m.update(pairs)` a key holds the value of the last pair naming it;
   * a key no pair names keeps its old presence and value.
   */
  lemma {:induction false} UpdateLastWins<K, V>(m: map<K, V>, pairs: seq<(K, V)>, k: K)
    ensures LastValue(pairs, k).Some? ==>
      k in Update(m, pairs) && Update(m, pairs)[k] == LastValue(pairs, k).value
    ensures LastValue(pairs, k).None? ==>
      (k in Update(m, pairs) <==> k in m) && (k in m ==> Update(m, pairs)[k] == m[k])
    decreases |pairs|
  {
    if |pairs| > 0 {
      var init := pairs[..|pairs| - 1];
      var last := pairs[|pairs| - 1];
      assert pairs == init + [last];
      UpdateSnoc(m, init, last);
      UpdateLastWins(m, init, k);
    }
  }
}

=== FILE: file_lock.dfy ===
/**
 * The advisory lock file: `acquire_flock` (open, a non-blocking try, then the
 * polling loop) and `release_flock` (unlock, close, and the occasional sweep
 * of stale lock files).
 *
 * Time, sleeping, randomness and the OS lock are oracles: each pass of the
 * polling loop is observed as a `Poll`, and the sweep sees the directory
 * listing as a sequence of `Entry` values.
 */
module FileLock {
  import opened Results
  import opened Strings
  import opened PosixPath
  import opened LockNames

  /**
   * One pass of the polling loop, after its 2 to 5 second sleep: the whole
   * seconds elapsed since waiting began, whether the target file exists, and
   * whether the retried non-blocking lock succeeds.
   */
  datatype Poll = Poll(elapsed: int, targetExists: bool, lockOk: bool)

  datatype Acquired =
    | Held(polls: nat)       // the OS lock was taken, after `polls` passes of the loop
    | Bypassed(polls: nat)   // the target file appeared: the handle is returned without the lock
    | Unavailable            // non-blocking and the first try failed: "cannot get file lock"
    | TimedOut(polls: nat)   // "get file lock timeout"
    | OpenFailed             // opening the lock file raised, before anything could be closed
    | Waiting                // the loop has not exited within the observed passes

  /** `acquire_flock` returned its handle (otherwise it raised, or has not returned). */
  predicate Returned(a: Acquired) {
    a.Held? || a.Bypassed?
  }

  /** `timeout = -1 if timeout is None else timeout` */
  function EffectiveTimeout(timeout: Option<int>): (t: int)
    ensures t > 0 <==> timeout.Some? && timeout.value > 0
    ensures t > 0 ==> t == timeout.value
    ensures timeout.None? ==> t == -1
  {
    if timeout.None? then -1 else timeout.value
  }

  /** The timeout is enforced only when positive. */
  predicate Expired(timeout: int, elapsed: int) {
    timeout > 0 && elapsed > timeout
  }

  /** The three ways out of the loop. */
  predicate Exits(timeout: int, p: Poll) {
    Expired(timeout, p.elapsed) || p.targetExists || p.lockOk
  }

  /**
   * Passes `i`, `i+1`, ... of the polling loop. Each pass first checks the
   * timeout, then the target file, then retries the lock; the loop leaves
   * only through one of these.
   */
  function WaitLoop(timeout: int, polls: seq<Poll>, i: nat): (r: Acquired)
    requires i <= |polls|
    ensures r.Held? || r.Bypassed? || r.TimedOut? || r.Waiting?
    ensures !r.Waiting? ==> i < r.polls <= |polls|
    ensures r.Held? ==> polls[r.polls - 1].lockOk && !polls[r.polls - 1].targetExists &&
                        !Expired(timeout, polls[r.polls - 1].elapsed)
    ensures r.Bypassed? ==> polls[r.polls - 1].targetExists && !Expired(timeout, polls[r.polls - 1].elapsed)
    ensures r.TimedOut? ==> Expired(timeout, polls[r.polls - 1].elapsed)
    ensures !r.Waiting? ==> forall j :: i <= j < r.polls - 1 ==> !Exits(timeout, polls[j])
    ensures r.Waiting? <==> forall j :: i <= j < |polls| ==> !Exits(timeout, polls[j])
    decreases |polls| - i
  {
    if i == |polls| then Waiting
    else
      var p := polls[i];
      if Expired(timeout, p.elapsed) then TimedOut(i + 1)
      else if p.targetExists then Bypassed(i + 1)
      else if p.lockOk then Held(i + 1)
      else WaitLoop(timeout, polls, i + 1)
  }

  /**
   * `acquire_flock(keyname, local_path, block, timeout)`: `openOk` is whether
   * opening the lock file succeeds, `firstTry` whether the first non-blocking
   * lock succeeds.
   */
  function AcquireFlock(block: bool, timeout: Option<int>, openOk: bool, firstTry: bool, polls: seq<Poll>): (r: Acquired)
    ensures !openOk <==> r.OpenFailed?
    ensures openOk && firstTry ==> r == Held(0)
    ensures r.Unavailable? <==> openOk && !firstTry && !block
    ensures r.TimedOut? ==> timeout.Some? && timeout.value > 0 && 0 < r.polls <= |polls| &&
                            polls[r.polls - 1].elapsed > timeout.value
    ensures r.Waiting? ==> block && forall j :: 0 <= j < |polls| ==>
                             !polls[j].targetExists && !polls[j].lockOk
    ensures Returned(r) ==> r.polls <= |polls|
    ensures Returned(r) && r.polls > 0 ==> polls[r.polls - 1].targetExists || polls[r.polls - 1].lockOk
    // the handle comes without waiting only from a first try that took the lock
    ensures r == Held(0) <==> openOk && firstTry
    // a blocking call whose first try failed is decided by the polling loop alone
    ensures openOk && !firstTry && block ==> r == WaitLoop(EffectiveTimeout(timeout), polls, 0)
  {
    if !openOk then OpenFailed
    else if firstTry then Held(0)
    else if !block then Unavailable
    else WaitLoop(EffectiveTimeout(timeout), polls, 0)
  }

  /** Each pass sleeps at least two seconds, so the `k`-th pass sees at least `2k` seconds elapsed. */
  predicate SleepsAtLeastTwo(polls: seq<Poll>) {
    forall j :: 0 <= j < |polls| ==> polls[j].elapsed >= 2 * (j + 1)
  }

  /** With a positive timeout, the loop exits within `timeout / 2 + 1` passes. */
  lemma PositiveTimeoutEndsWait(timeout: int, polls: seq<Poll>)
    requires timeout > 0 && SleepsAtLeastTwo(polls) && |polls| > timeout / 2
    ensures WaitLoop(timeout, polls, 0) != Waiting
  {
    var j := timeout / 2;
    assert polls[j].elapsed >= 2 * (j + 1) > timeout;
    assert Exits(timeout, polls[j]);
  }

  /** With no timeout (`None`, read as -1), only the target file or the lock ends the wait. */
  lemma NoTimeoutWaitsForever(openOk: bool, polls: seq<Poll>)
    requires openOk
    requires forall j :: 0 <= j < |polls| ==> !polls[j].targetExists && !polls[j].lockOk
    ensures AcquireFlock(true, None, openOk, false, polls) == Waiting
  {
  }

  /** One entry of the lock directory: its name, whether it is a regular file, its age, and whether removal works. */
  datatype Entry = Entry(name: string, isFile: bool, age: Option<real>, removeOk: bool)

  /** What the sweep does with an entry; failures are swallowed and the sweep continues. */
  datatype Fate = NotLockFile | StatFailed | Fresh | Removed | RemoveFailed

  /** Eight hours, in seconds. */
  const StaleAfter: real := 3600.0 * 8.0

  /** A regular file whose full path has extension exactly `.lock`. */
  predicate IsLockFile(dir: string, e: Entry) {
    e.isFile && Ext(Join(dir, e.name)) == ".lock"
  }

  /** A lock file (`isLock`) created strictly more than eight hours ago. */
  predicate Stale(isLock: bool, e: Entry) {
    isLock && e.age.Some? && e.age.value > StaleAfter
  }

  /** The fate of one entry, decided from that entry alone; `isLock` is `IsLockFile` of it. */
  function FateOf(isLock: bool, e: Entry): Fate {
    if !isLock then NotLockFile
    else if e.age.None? then StatFailed
    else if !(e.age.value > StaleAfter) then Fresh
    else if e.removeOk then Removed
    else RemoveFailed
  }

  /**
   * Removal is attempted on exactly the stale lock files and succeeds exactly
   * where the filesystem allows; anything that is not a lock file is left
   * alone.
   */
  lemma FateOfStale(isLock: bool, e: Entry)
    ensures FateOf(isLock, e) == Removed <==> Stale(isLock, e) && e.removeOk
    ensures FateOf(isLock, e) in {Removed, RemoveFailed} <==> Stale(isLock, e)
    ensures FateOf(isLock, e) == NotLockFile <==> !isLock
  {
  }

  /**
   * The sweep over a directory listing: every entry gets the fate it would
   * get alone, so a failure on one entry changes nothing for the others.
   */
  function Sweep(dir: string, entries: seq<Entry>): (fates: seq<Fate>)
    ensures |fates| == |entries|
    ensures forall i :: 0 <= i < |entries| ==> fates[i] == FateOf(IsLockFile(dir, entries[i]), entries[i])
  {
    if |entries| == 0 then []
    else [FateOf(IsLockFile(dir, entries[0]), entries[0])] + Sweep(dir, entries[1..])
  }

  /** Over a whole listing: removed exactly where stale and removable, attempted exactly where stale. */
  lemma SweepRemovesOnlyStale(dir: string, entries: seq<Entry>, i: int)
    requires 0 <= i < |entries|
    ensures var lock := IsLockFile(dir, entries[i]);
      && (Sweep(dir, entries)[i] == Removed <==> Stale(lock, entries[i]) && entries[i].removeOk)
      && (Sweep(dir, entries)[i] in {Removed, RemoveFailed} <==> Stale(lock, entries[i]))
      && (Sweep(dir, entries)[i] == NotLockFile <==> !lock)
  {
    FateOfStale(IsLockFile(dir, entries[i]), entries[i]);
  }

  datatype ReleaseReport = NoHandle | Unlocked(sweep: Option<seq<Fate>>)

  /**
   * `release_flock(f, keyname)`: `draw` is `random.randint(0, 10)`. Without a
   * handle nothing happens; otherwise the lock is released, and the lock
   * directory is swept when a keyname is given and the draw is below 3. The
   * directory swept is `os.path.dirname(get_lock_filename(keyname))`, which
   * is `LockDir` whatever the keyname (`SweepDirectoryIsLockDir`).
   */
  function ReleaseFlock(hasHandle: bool, keyname: string, draw: int, entries: seq<Entry>): (r: ReleaseReport)
    requires 0 <= draw <= 10
    ensures r == NoHandle <==> !hasHandle
    ensures r.Unlocked? ==> (r.sweep.Some? <==> keyname != "" && draw < 3)
    ensures r.Unlocked? && r.sweep.Some? ==> r.sweep.value == Sweep(LockDir, entries)
  {
    if !hasHandle then NoHandle
    else if keyname != "" && draw < 3 then Unlocked(Some(Sweep(LockDir, entries)))
    else Unlocked(None)
  }

  /** Every lock file lives directly in `LockDir`, so that is the directory `release_flock` lists. */
  lemma SweepDirectoryIsLockDir(keyname: string, md5: string -> string)
    requires IsHexDigest(md5(keyname))
    ensures Dirname(LockFilename(keyname, md5)) == LockDir
  {
    var lockPath := LockFilename(keyname, md5);
    assert '/' !in Basename(lockPath);
    assert LockDir != "" && LockDir[|LockDir| - 1] != '/';
    DirnameOfChild(LockDir, Basename(lockPath));
  }

  /**
   * The lock file of every keyname, listed in its own directory, passes the
   * sweep's `.lock` test: an old enough lock file is always a candidate for removal.
   */
  lemma OwnLockFileIsSweepable(keyname: string, md5: string -> string)
    requires IsHexDigest(md5(keyname))
    ensures Ext(Join(LockDir, Basename(LockFilename(keyname, md5)))) == ".lock"
  {
    var lockPath := LockFilename(keyname, md5);
    var name := Basename(lockPath);
    assert lockPath == LockDir + "/" + name;
    assert |name| > 0 by {
      assert name == LockName(Stem(keyname), Hash8(keyname, md5));
    }
    LockDirJoin(name, lockPath);
  }

  lemma LockDirJoin(name: string, lockPath: string)
    requires lockPath == LockDir + "/" + name && '/' !in name && name != ""
    ensures Join(LockDir, name) == lockPath
  {
    assert !EndsWith(LockDir, "/");
    assert !StartsWith(name, "/");
  }
}

=== FILE: http.dfy ===
/**
 * `http_request`: header defaults, User-Agent injection, JSON encoding of the
 * body, folding of the URL's query string into the parameters, dispatch on
 * the verb, and the three-attempt retry loop.
 *
 * The HTTP client is not modelled: each attempt is an oracle outcome, either a
 * response (with its status code) or a raised exception.
 */
module Http {
  import opened Results
  import opened Strings
  import opened Dicts

  type Headers = map<string, string>

  const DefaultHeaders: Headers := map[
    "Accept-Language" := "en-US, en; q=0.8, zh-Hans-CN; q=0.5, zh-Hans; q=0.3",
    "Accept-Encoding" := "gzip, deflate, br",
    "Accept" := "text/html, application/xhtml+xml, image/jxr, */*",
    "Connection" := "Keep-Alive"
  ]

  /** Caller headers (when a non-empty dict was given) override the defaults key by key. */
  function MergeHeaders(caller: Option<Headers>): (h: Headers)
    ensures caller.Some? ==> h.Keys == DefaultHeaders.Keys + caller.value.Keys
    ensures caller.None? ==> h == DefaultHeaders
    ensures caller.Some? ==> forall k :: k in caller.value ==> h[k] == caller.value[k]
    ensures forall k :: k in DefaultHeaders && (caller.None? || k !in caller.value) ==>
      h[k] == DefaultHeaders[k]
  {
    if caller.Some? && |caller.value| > 0 then DefaultHeaders + caller.value else DefaultHeaders
  }

  /** The agent (`random.choice(USER_AGENTS)`) is added only when the headers carry no User-Agent. */
  function WithUserAgent(h: Headers, agent: string): (r: Headers)
    ensures r.Keys == h.Keys + {"User-Agent"}
    ensures forall k :: k in h ==> r[k] == h[k]
    ensures "User-Agent" !in h ==> r["User-Agent"] == agent
  {
    if "User-Agent" in h then h else h["User-Agent" := agent]
  }

  /**
   * The `data` argument. `Json(source)` is the text `json.dumps(source)`,
   * which is never empty.
   */
  datatype Body = NoBody | Form(fields: map<string, string>) | Raw(text: string) | Json(source: Body)

  /** Python truthiness of the body. */
  predicate Truthy(b: Body) {
    match b
    case NoBody => false
    case Form(fields) => |fields| > 0
    case Raw(text) => |text| > 0
    case Json(_) => true
  }

  predicate JsonContent(h: Headers) {
    "Content-Type" in h && Contains(h["Content-Type"], "json")
  }

  /** The body is JSON-encoded only when non-empty, the method is not GET, and Content-Type mentions json. */
  function EncodeBody(verb: string, h: Headers, data: Body): (b: Body)
    ensures b == data || b == Json(data)
    ensures b == Json(data) <==> Truthy(data) && verb != "GET" && JsonContent(h)
  {
    assert data < Json(data);
    if Truthy(data) && verb != "GET" && JsonContent(h) then Json(data) else data
  }

  /** Tab, carriage return and line feed: `urlsplit` deletes them anywhere in the URL before splitting it. */
  const UnsafeUrlChars: set<char> := {'\t', '\r', '\n'}

  /**
   * The query component `urlsplit` finds: after the first `?`, up to the
   * first `#`, with tabs and line breaks deleted. (Its stripping of leading
   * control characters and spaces never reaches the query.)
   */
  function UrlQuery(url: string): (q: string)
    ensures '#' !in q
    ensures '?' !in url ==> q == ""
    // the fragment is cut first: a `?` after the first `#` starts no query
    ensures '#' in url && '?' !in url[..Find(url, '#')] ==> q == ""
    ensures forall c :: c in UnsafeUrlChars ==> c !in q
  {
    var beforeFragment := if '#' in url then url[..Find(url, '#')] else url;
    var q := Find(beforeFragment, '?');
    Without(if q < 0 then "" else beforeFragment[q + 1..], UnsafeUrlChars)
  }

  /** The query of `base?q#fragment` is `q`, less its tabs and line breaks. */
  lemma UrlQueryOf(base: string, q: string, f: string)
    requires '?' !in base && '#' !in base && '#' !in q
    requires f == "" || f[0] == '#'
    ensures UrlQuery(base + "?" + q + f) == Without(q, UnsafeUrlChars)
  {
    var url := base + "?" + q + f;
    var n := |base| + 1 + |q|;
    assert url[..n] == base + "?" + q;
    if f == "" {
      assert url == base + "?" + q;
      assert '#' !in url;
    } else {
      assert url[n] == '#';
      assert url[..n][..|base|] == base;
      FindAt(url, '#', n);
    }
    var bf := base + "?" + q;
    assert bf[..|base|] == base;
    FindAt(bf, '?', |base|);
    assert bf[|base| + 1..] == q;
  }

  /** `url.split("?")[0]` */
  function CutAtQuestion(url: string): (r: string)
    ensures '?' !in r
    ensures StartsWith(url, r)
    ensures |r| < |url| ==> url[|r|] == '?'
  {
    var parts := Split(url, '?');
    if '?' in url then
      var i := Find(url, '?');
      assert parts[0] == url[..i];
      parts[0]
    else parts[0]
  }

  /** Cutting `base?rest` at its first `?` leaves `base`. */
  lemma CutAtQuestionOf(base: string, rest: string)
    requires '?' !in base
    ensures CutAtQuestion(base + "?" + rest) == base
  {
    var url := base + "?" + rest;
    var cut := CutAtQuestion(url);
    assert url[|base|] == '?';
    assert url[..|base|] == base;
  }

  /** The non-empty `&`-separated items of a query string. */
  function QueryItems(query: string): (items: seq<string>)
    ensures forall i :: 0 <= i < |items| ==> items[i] != "" && '&' !in items[i]
  {
    NonEmpty(Split(query, '&'))
  }

  /** The pieces that are not empty, in order: the `if item` filter. */
  function NonEmpty(parts: seq<string>): (r: seq<string>)
    requires forall k :: 0 <= k < |parts| ==> '&' !in parts[k]
    ensures forall i :: 0 <= i < |r| ==> r[i] != "" && '&' !in r[i]
    ensures |r| <= |parts|
    ensures forall x :: x in r <==> x in parts && x != ""
    ensures (forall k :: 0 <= k < |parts| ==> parts[k] != "") ==> r == parts
  {
    if |parts| == 0 then []
    else if parts[0] == "" then NonEmpty(parts[1..])
    else [parts[0]] + NonEmpty(parts[1..])
  }

  /** The filter keeps order: it distributes over concatenation. */
  lemma {:induction false} NonEmptyAppend(a: seq<string>, b: seq<string>)
    requires forall k :: 0 <= k < |a| ==> '&' !in a[k]
    requires forall k :: 0 <= k < |b| ==> '&' !in b[k]
    ensures NonEmpty(a + b) == NonEmpty(a) + NonEmpty(b)
    decreases |a|
  {
    if |a| > 0 {
      assert (a + b)[1..] == a[1..] + b;
      NonEmptyAppend(a[1..], b);
    } else {
      assert a + b == b;
    }
  }

  /** The items of an `&`-join of non-empty items are those items: `QueryItems` inverts the join. */
  lemma QueryItemsOfJoin(items: seq<string>)
    requires forall k :: 0 <= k < |items| ==> items[k] != "" && '&' !in items[k]
    ensures QueryItems(JoinWith(items, '&')) == items
  {
    if |items| == 0 {
      assert Split("", '&') == [""];
    } else {
      SplitJoin(items, '&');
    }
  }

  /**
   * A URL `base?a&b&...` whose base holds neither `?` nor `#` carries
   * exactly the items `a`, `b`, ... as its query.
   */
  lemma QueryItemsOfUrl(base: string, items: seq<string>)
    requires '?' !in base && '#' !in base
    requires forall k :: 0 <= k < |items| ==>
      items[k] != "" && '&' !in items[k] && '#' !in items[k] && forall c :: c in UnsafeUrlChars ==> c !in items[k]
    ensures QueryItems(UrlQuery(base + "?" + JoinWith(items, '&'))) == items
  {
    var q := JoinWith(items, '&');
    JoinedItemsAreQuery(items);
    UrlQueryOf(base, q, "");
    assert base + "?" + q + "" == base + "?" + q;
    QueryItemsOfJoin(items);
  }

  lemma JoinedItemsAreQuery(items: seq<string>)
    requires forall k :: 0 <= k < |items| ==>
      '#' !in items[k] && forall c :: c in UnsafeUrlChars ==> c !in items[k]
    ensures '#' !in JoinWith(items, '&')
    ensures Without(JoinWith(items, '&'), UnsafeUrlChars) == JoinWith(items, '&')
  {
    var q := JoinWith(items, '&');
    JoinWithAvoids(items, '&', '#');
    forall c | c in UnsafeUrlChars
      ensures c !in q
    {
      JoinWithAvoids(items, '&', c);
    }
    assert forall k :: 0 <= k < |q| ==> q[k] !in UnsafeUrlChars;
  }

  datatype PrepError =
    | ItemWithoutEquals(item: string)   // dict.update gets a one-element sequence: ValueError
    | BodyNotUpdatable                  // data is a string (or JSON text): it has no update method

  /** `items[i]` is the first item without a `=`. */
  predicate FirstWithoutEquals(items: seq<string>, i: int) {
    0 <= i < |items| && '=' !in items[i] && forall j :: 0 <= j < i ==> '=' in items[j]
  }

  /** `item.split('=', maxsplit=1)` for each item, as a key/value pair; the first item with no `=` is an error. */
  function QueryPairs(items: seq<string>): (r: Result<seq<(string, string)>, PrepError>)
    ensures r.Ok? <==> forall i :: 0 <= i < |items| ==> '=' in items[i]
    ensures r.Ok? ==> |r.value| == |items|
    ensures r.Ok? ==> forall i :: 0 <= i < |items| ==>
      '=' !in r.value[i].0 && items[i] == r.value[i].0 + "=" + r.value[i].1
    ensures r.Err? ==> exists i :: FirstWithoutEquals(items, i) && r.error == ItemWithoutEquals(items[i])
  {
    if |items| == 0 then Ok([])
    else
      var parts := SplitOnce(items[0], '=');
      if |parts| == 1 then
        assert FirstWithoutEquals(items, 0);
        Err(ItemWithoutEquals(items[0]))
      else
        var tail := QueryPairs(items[1..]);
        PairsCons(items, parts, tail);
        match tail
        case Err(e) => Err(e)
        case Ok(rest) => Ok([(parts[0], parts[1])] + rest)
  }

  lemma PairsCons(items: seq<string>, parts: seq<string>, tail: Result<seq<(string, string)>, PrepError>)
    requires |items| > 0 && parts == SplitOnce(items[0], '=') && |parts| == 2
    requires tail.Ok? <==> forall i :: 0 <= i < |items| - 1 ==> '=' in items[1..][i]
    requires tail.Ok? ==> |tail.value| == |items| - 1
    requires tail.Ok? ==> forall i :: 0 <= i < |items| - 1 ==>
      '=' !in tail.value[i].0 && items[1..][i] == tail.value[i].0 + "=" + tail.value[i].1
    requires tail.Err? ==> exists i :: FirstWithoutEquals(items[1..], i) && tail.error == ItemWithoutEquals(items[1..][i])
    ensures tail.Ok? <==> forall i :: 0 <= i < |items| ==> '=' in items[i]
    ensures tail.Ok? ==> forall i :: 0 <= i < |items| ==>
      var r := [(parts[0], parts[1])] + tail.value;
      '=' !in r[i].0 && items[i] == r[i].0 + "=" + r[i].1
    ensures tail.Err? ==> exists i :: FirstWithoutEquals(items, i) && tail.error == ItemWithoutEquals(items[i])
  {
    assert items[0] == parts[0] + "=" + parts[1] by {
      assert JoinWith(parts, '=') == items[0];
    }
    assert '=' in items[0];
    assert forall i :: 1 <= i < |items| ==> items[1..][i - 1] == items[i];
    if tail.Err? {
      var k :| FirstWithoutEquals(items[1..], k) && tail.error == ItemWithoutEquals(items[1..][k]);
      assert FirstWithoutEquals(items, k + 1);
    }
  }

  /**
   * When the URL has a non-empty query, `data or {}` receives the query's
   * pairs through `dict.update` and the URL is cut at its first `?`.
   */
  function FoldQuery(url: string, data: Body): (r: Result<(string, Body), PrepError>)
    ensures UrlQuery(url) == "" ==> r == Ok((url, data))
    ensures r.Ok? && UrlQuery(url) != "" ==> r.value.0 == CutAtQuestion(url) && '?' !in r.value.0
    // text (raw or JSON) has no `update`: a non-empty non-form body cannot take the query
    ensures UrlQuery(url) != "" && Truthy(data) && !data.Form? ==> r == Err(BodyNotUpdatable)
    ensures r.Ok? && UrlQuery(url) != "" ==> r.value.1.Form?
  {
    var query := UrlQuery(url);
    if query == "" then Ok((url, data))
    else
      var base := if Truthy(data) then data else Form(map[]);
      match base
      case Form(fields) =>
        var pairs :- QueryPairs(QueryItems(query));
        Ok((CutAtQuestion(url), Form(Update(fields, pairs))))
      case _ => Err(BodyNotUpdatable)
  }

  /** What is handed to `requests` besides the URL and the data. */
  datatype Kwargs = Kwargs(headers: Headers, stream: Option<bool>, proxies: Option<map<string, string>>)

  /** The `requests` call an attempt makes. */
  datatype Call =
    | Get(url: string, params: Body, kw: Kwargs)
    | Put(url: string, data: Body, kw: Kwargs)
    | Delete(url: string, kw: Kwargs)
    | Options(url: string, kwargs: map<string, string>)   // the data dict becomes keyword arguments
    | Post(url: string, data: Body, kw: Kwargs)

  /** The `requests` call for an upper-cased verb; anything unrecognised is a POST. */
  function Dispatch(m: string, u: string, d: Body, kw: Kwargs): (c: Call)
    ensures c.Get? <==> m == "GET"
    ensures c.Put? <==> m == "PUT"
    ensures c.Delete? <==> m == "DELETE"
    ensures c.Options? <==> m == "OPTIONS"
    ensures c.url == u
    ensures !c.Options? ==> CallHeaders(c) == Some(kw.headers)
    ensures !c.Options? ==> CallKw(c) == Some(kw)
    // the data each call carries: GET as params, PUT and POST as the body, DELETE none,
    // OPTIONS the dict (or nothing) as keyword arguments
    ensures c.Get? ==> c.params == d
    ensures c.Put? || c.Post? ==> c.data == d
    ensures c.Options? ==> c.kwargs == (if d.Form? then d.fields else map[])
  {
    if m == "GET" then Get(u, d, kw)
    else if m == "PUT" then Put(u, d, kw)
    else if m == "DELETE" then Delete(u, kw)
    else if m == "OPTIONS" then Options(u, if d.Form? then d.fields else map[])
    else Post(u, d, kw)
  }

  /** The keyword arguments: the headers with a User-Agent, `stream` for GET only, `proxies` when a proxy is given. */
  function RequestKwargs(h: Headers, agent: string, m: string, stream: bool, proxy: map<string, string>): (kw: Kwargs)
    ensures kw.headers == WithUserAgent(h, agent)
    ensures kw.stream.Some? <==> m == "GET"
    ensures kw.stream.Some? ==> kw.stream.value == stream
    ensures kw.proxies.Some? <==> |proxy| > 0
    ensures kw.proxies.Some? ==> kw.proxies.value == proxy
  {
    Kwargs(WithUserAgent(h, agent), if m == "GET" then Some(stream) else None, if |proxy| > 0 then Some(proxy) else None)
  }

  /** Everything `http_request` does before its first attempt. */
  function Prepare(
    url: string, verb: string, headers: Option<Headers>, data: Body,
    stream: bool, proxy: map<string, string>, agent: string): (r: Result<Call, PrepError>)
    ensures r.Ok? ==> (r.value.Get? <==> Upper(verb) == "GET")
    ensures r.Ok? ==> (r.value.Put? <==> Upper(verb) == "PUT")
    ensures r.Ok? ==> (r.value.Delete? <==> Upper(verb) == "DELETE")
    ensures r.Ok? ==> (r.value.Options? <==> Upper(verb) == "OPTIONS")
    ensures r.Ok? && r.value.Get? ==> r.value.kw.stream == Some(stream)
    ensures r.Ok? && !r.value.Get? && !r.value.Options? ==> r.value.kw.stream == None
    ensures r.Ok? && !r.value.Options? ==> CallHeaders(r.value) == Some(WithUserAgent(MergeHeaders(headers), agent))
    ensures r.Ok? ==> '?' !in CallUrl(r.value) || UrlQuery(url) == ""
    ensures r.Ok? && UrlQuery(url) == "" ==> CallUrl(r.value) == url
    ensures r.Ok? && UrlQuery(url) != "" ==> CallUrl(r.value) == CutAtQuestion(url)
    ensures var folded := FoldQuery(url, EncodeBody(Upper(verb), MergeHeaders(headers), data));
      && (r.Err? <==> folded.Err?) && (r.Err? ==> r.error == folded.error)
      && (r.Ok? ==> r.value == Dispatch(Upper(verb), folded.value.0, folded.value.1,
                                        RequestKwargs(MergeHeaders(headers), agent, Upper(verb), stream, proxy)))
  {
    var h := MergeHeaders(headers);
    var m := Upper(verb);
    var kw := RequestKwargs(h, agent, m, stream, proxy);
    var body := EncodeBody(m, h, data);
    var folded :- FoldQuery(url, body);
    Ok(Dispatch(m, folded.0, folded.1, kw))
  }

  /** A response; `ok` follows `requests`: no 4xx or 5xx status. */
  datatype Response = Response(status: int, contentDisposition: Option<string>)

  /** `Response.ok`: `raise_for_status` raises for a client or a server error. */
  predicate IsOk(resp: Response)
    ensures IsOk(resp) <==> !ClientError(resp.status) && !ServerError(resp.status)
  {
    !(400 <= resp.status < 600)
  }

  predicate ClientError(status: int) {
    400 <= status < 500
  }

  predicate ServerError(status: int) {
    500 <= status < 600
  }

  /** What one attempt yields. */
  datatype Attempt = Responded(response: Response) | Threw   // the attempt raised an exception

  const MaxAttempts: nat := 3

  predicate OkAt(outcomes: seq<Attempt>, j: nat)
    requires j < |outcomes|
  {
    outcomes[j].Responded? && IsOk(outcomes[j].response)
  }

  /** The end of the loop: the response kept after the last attempt made, or the exception of the third. */
  datatype Fetch = Fetched(response: Response, attempts: nat) | Exhausted

  /**
   * Attempts `i`, `i+1`, ... of the loop. The loop breaks on an ok response;
   * a non-ok response or an exception before the third attempt leads to
   * another attempt; an exception on the third attempt escapes.
   */
  function RetryFrom(outcomes: seq<Attempt>, i: nat): (r: Fetch)
    requires i < MaxAttempts <= |outcomes|
    ensures r.Fetched? ==> i < r.attempts <= MaxAttempts
    ensures r.Fetched? ==> outcomes[r.attempts - 1] == Responded(r.response)
    ensures r.Fetched? && r.attempts < MaxAttempts ==> IsOk(r.response)
    ensures r.Fetched? ==> forall j :: i <= j < r.attempts - 1 ==> !OkAt(outcomes, j)
    ensures r.Exhausted? <==>
      outcomes[MaxAttempts - 1].Threw? && forall j :: i <= j < MaxAttempts ==> !OkAt(outcomes, j)
    decreases MaxAttempts - i
  {
    match outcomes[i]
    case Responded(resp) =>
      if IsOk(resp) || i == MaxAttempts - 1 then
        assert IsOk(resp) ==> OkAt(outcomes, i);
        Fetched(resp, i + 1)
      else RetryFrom(outcomes, i + 1)
    case Threw =>
      if i >= 2 then Exhausted else RetryFrom(outcomes, i + 1)
  }

  /** The whole loop, from the first attempt. */
  function Retry(outcomes: seq<Attempt>): (r: Fetch)
    requires MaxAttempts <= |outcomes|
    ensures r.Fetched? ==> 1 <= r.attempts <= MaxAttempts
    ensures r.Fetched? ==> outcomes[r.attempts - 1] == Responded(r.response)
    ensures r.Fetched? ==> forall j :: 0 <= j < r.attempts - 1 ==> !OkAt(outcomes, j)
    ensures r.Fetched? && r.attempts < MaxAttempts ==> IsOk(r.response)
    ensures r.Exhausted? <==> outcomes[2].Threw? && !OkAt(outcomes, 0) && !OkAt(outcomes, 1)
  {
    RetryFrom(outcomes, 0)
  }

  datatype HttpError = Malformed(reason: PrepError) | NetworkFailure

  /** A completed request: the call every attempt made, the response kept, and the attempts used. */
  datatype Exchange = Exchange(call: Call, response: Response, attempts: nat)

  /** `http_request(url, verb, headers, data=data, stream=stream, proxy=proxy)` */
  function HttpRequest(
    url: string, verb: string, headers: Option<Headers>, data: Body,
    stream: bool, proxy: map<string, string>, agent: string, outcomes: seq<Attempt>): (r: Result<Exchange, HttpError>)
    requires MaxAttempts <= |outcomes|
    ensures Prepare(url, verb, headers, data, stream, proxy, agent).Err? ==> r.Err? && r.error.Malformed?
    ensures r.Ok? ==> 1 <= r.value.attempts <= MaxAttempts
    ensures r.Ok? ==> outcomes[r.value.attempts - 1] == Responded(r.value.response)
    ensures r.Ok? && !IsOk(r.value.response) ==> r.value.attempts == MaxAttempts
    ensures r == Err(NetworkFailure) ==> outcomes[MaxAttempts - 1].Threw?
    ensures r.Ok? ==> forall j :: 0 <= j < r.value.attempts - 1 ==> !OkAt(outcomes, j)
    ensures Prepare(url, verb, headers, data, stream, proxy, agent).Ok? ==>
      r == Send(Prepare(url, verb, headers, data, stream, proxy, agent).value, outcomes)
  {
    match Prepare(url, verb, headers, data, stream, proxy, agent)
    case Err(e) => Err(Malformed(e))
    case Ok(call) => Send(call, outcomes)
  }

  /** The retry loop around one prepared call. */
  function Send(call: Call, outcomes: seq<Attempt>): (r: Result<Exchange, HttpError>)
    requires MaxAttempts <= |outcomes|
    ensures r.Err? ==> r == Err(NetworkFailure) && outcomes[MaxAttempts - 1].Threw?
    ensures r.Err? <==> outcomes[2].Threw? && !OkAt(outcomes, 0) && !OkAt(outcomes, 1)
    ensures r.Ok? ==> r.value.call == call && 1 <= r.value.attempts <= MaxAttempts
    ensures r.Ok? ==> forall j :: 0 <= j < r.value.attempts - 1 ==> !OkAt(outcomes, j)
    ensures r.Ok? ==> outcomes[r.value.attempts - 1] == Responded(r.value.response)
    ensures r.Ok? && !IsOk(r.value.response) ==> r.value.attempts == MaxAttempts
  {
    match Retry(outcomes)
    case Exhausted => Err(NetworkFailure)
    case Fetched(resp, n) => Ok(Exchange(call, resp, n))
  }

  function CallUrl(call: Call): string {
    call.url
  }

  /** The keyword arguments a call passes besides its data; OPTIONS passes only the data dict. */
  function CallKw(call: Call): Option<Kwargs> {
    match call
    case Options(_, _) => None
    case Get(_, _, kw) => Some(kw)
    case Put(_, _, kw) => Some(kw)
    case Delete(_, kw) => Some(kw)
    case Post(_, _, kw) => Some(kw)
  }

  /** The headers a call sends; OPTIONS sends none of them. */
  function CallHeaders(call: Call): Option<Headers> {
    match call
    case Options(_, _) => None
    case Get(_, _, kw) => Some(kw.headers)
    case Put(_, _, kw) => Some(kw.headers)
    case Delete(_, kw) => Some(kw.headers)
    case Post(_, _, kw) => Some(kw.headers)
  }

  /**
   * The headers every call but OPTIONS sends (see `Prepare`): a
   * caller-supplied User-Agent is sent unchanged, and the caller's other
   * headers too; defaults the caller did not name are still sent.
   */
  lemma CallerHeadersWin(caller: Headers, agent: string, k: string)
    ensures var sent := WithUserAgent(MergeHeaders(Some(caller)), agent);
      && (k in caller ==> k in sent && sent[k] == caller[k])
      && (k in DefaultHeaders && k !in caller ==> k in sent && sent[k] == DefaultHeaders[k])
      && "User-Agent" in sent
      && ("User-Agent" !in caller ==> sent["User-Agent"] == agent)
  {
    UserAgentNotDefault();
  }

  /** None of the four defaults is a User-Agent, so a pool agent is injected whenever the caller names none. */
  lemma UserAgentNotDefault()
    ensures "User-Agent" !in DefaultHeaders
  {
    assert DefaultHeaders.Keys == {"Accept-Language", "Accept-Encoding", "Accept", "Connection"};
    assert "User-Agent"[0] != "Connection"[0];
  }

  /** With a non-empty query, folding into a form succeeds exactly when every item has a `=`. */
  lemma FoldQueryNeedsEquals(url: string, fields: map<string, string>)
    requires UrlQuery(url) != ""
    ensures var items := QueryItems(UrlQuery(url));
      FoldQuery(url, Form(fields)).Ok? <==> forall i :: 0 <= i < |items| ==> '=' in items[i]
  {
    var pairs := QueryPairs(QueryItems(UrlQuery(url)));
    assert FoldQuery(url, Form(fields)).Ok? <==> pairs.Ok?;
  }

  /**
   * End to end: folding `base?a&b&...` into a form succeeds exactly when
   * every item holds a `=`, and the request then goes to `base`.
   */
  lemma FoldQueryOfUrl(base: string, items: seq<string>, fields: map<string, string>)
    requires |items| > 0 && '?' !in base && '#' !in base
    requires forall k :: 0 <= k < |items| ==>
      items[k] != "" && '&' !in items[k] && '#' !in items[k] && forall c :: c in UnsafeUrlChars ==> c !in items[k]
    ensures var folded := FoldQuery(base + "?" + JoinWith(items, '&'), Form(fields));
      && (folded.Ok? <==> forall i :: 0 <= i < |items| ==> '=' in items[i])
      && (folded.Ok? ==> folded.value.0 == base)
  {
    var url := base + "?" + JoinWith(items, '&');
    QueryItemsOfUrl(base, items);
    assert UrlQuery(url) != "";
    FoldQueryNeedsEquals(url, fields);
    CutAtQuestionOf(base, JoinWith(items, '&'));
  }

  /**
   * With a non-empty query, the URL is cut at its first `?`, and each key
   * carries the value of the last item naming it, while a key no item names
   * keeps the body's value.
   */
  lemma FoldQueryLastWins(url: string, fields: map<string, string>, k: string)
    requires UrlQuery(url) != ""
    ensures var folded := FoldQuery(url, Form(fields));
      var pairs := QueryPairs(QueryItems(UrlQuery(url)));
      folded.Ok? ==>
      var r := folded.value;
      && pairs.Ok?
      && r.0 == CutAtQuestion(url)
      && r.1.Form?
      && (LastValue(pairs.value, k).Some? ==>
            k in r.1.fields && r.1.fields[k] == LastValue(pairs.value, k).value)
      && (LastValue(pairs.value, k).None? ==>
            (k in r.1.fields <==> k in fields) && (k in fields ==> r.1.fields[k] == fields[k]))
  {
    var pairs := QueryPairs(QueryItems(UrlQuery(url)));
    if FoldQuery(url, Form(fields)).Ok? {
      var base := if |fields| > 0 then fields else map[];
      assert pairs.Ok? && FoldQuery(url, Form(fields)).value == (CutAtQuestion(url), Form(Update(base, pairs.value)));
      UpdateLastWins(base, pairs.value, k);
    }
  }

  /**
   * A body that is empty or absent (`data=None`, as every `download` sends)
   * folds exactly as an empty form: `data or {}`.
   */
  lemma FalsyBodyFoldsAsEmptyForm(url: string, data: Body)
    requires UrlQuery(url) != "" && !Truthy(data)
    ensures FoldQuery(url, data) == FoldQuery(url, Form(map[]))
  {
  }

  /**
   * A non-GET request whose JSON Content-Type turns a non-empty body into
   * text cannot take query parameters: `update` on the text raises.
   */
  lemma JsonBodyWithQueryRaises(
    url: string, verb: string, caller: Headers, data: Body,
    stream: bool, proxy: map<string, string>, agent: string)
    requires Upper(verb) != "GET" && Truthy(data)
    requires "Content-Type" in caller && Contains(caller["Content-Type"], "json")
    requires UrlQuery(url) != ""
    ensures Prepare(url, verb, Some(caller), data, stream, proxy, agent) == Err(BodyNotUpdatable)
  {
    CallerJsonEncodes(verb, caller, data);
    assert FoldQuery(url, Json(data)) == Err(BodyNotUpdatable);
  }

  lemma CallerJsonEncodes(verb: string, caller: Headers, data: Body)
    requires Upper(verb) != "GET" && Truthy(data)
    requires "Content-Type" in caller && Contains(caller["Content-Type"], "json")
    ensures EncodeBody(Upper(verb), MergeHeaders(Some(caller)), data) == Json(data)
  {
    assert MergeHeaders(Some(caller))["Content-Type"] == caller["Content-Type"];
  }

  /**
   * Three scenarios of the retry loop: two exceptions and then a response
   * give that response after three attempts; three exceptions escape; a
   * non-ok first response is retried rather than returned.
   */
  lemma RetryScenarios(resp: Response, bad: Response, outcomes: seq<Attempt>)
    requires IsOk(resp) && !IsOk(bad)
    ensures Retry([Threw, Threw, Responded(resp)]) == Fetched(resp, 3)
    ensures Retry([Threw, Threw, Threw]) == Exhausted
    ensures |outcomes| >= MaxAttempts && outcomes[0] == Responded(bad) ==>
      Retry(outcomes).Exhausted? || Retry(outcomes).attempts > 1
  {
  }
}

=== FILE: lock_download.dfy ===
/**
 * `FileStorage.lock_download`: the existence fast path, then either the
 * distributed lock (`flocker=True`) or the advisory lock file
 * (`flocker=False`) around the backend's `download`.
 *
 * The run is recorded as a sequence of events. The distributed lock service
 * is opaque: its call is one event and its result an oracle. The backend's
 * `download` is an oracle result too.
 */
module LockDownload {
  import opened Results
  import opened LockNames
  import opened FileLock

  datatype Event =
    | DistributedDownload(key: string, expire: int, args: seq<string>)   // dist_locker(key, download, expire, args)
    | AcquireFileLock(lockPath: string, timeout: int)
    | RunDownload
    | ReleaseFileLock(report: ReleaseReport)

  datatype Failure =
    | AcquireFailed(acquired: Acquired)
    | DownloadFailed(reason: string)
    | DistributedFailed(reason: string)

  datatype Outcome = Finished(path: string) | Raised(failure: Failure) | Blocked

  /** What the environment shows one run. */
  datatype World = World(
    localIsFile: bool,                  // os.path.isfile(local_path) on entry
    remoteIsFile: bool,                 // os.path.isfile(remoting_path) on entry
    distributed: Result<string, string>,// what dist_locker returns or raises
    openOk: bool,                       // opening the lock file succeeds
    firstTry: bool,                     // the first non-blocking lock succeeds
    polls: seq<Poll>,                   // the passes of the polling loop
    localIsFileAfterAcquire: bool,      // os.path.isfile(local_path) once the lock is acquired
    download: Result<string, string>,   // what self.download returns or raises
    draw: int,                          // random.randint(0, 10) in release_flock
    entries: seq<Entry>)                // the lock directory listing, if swept

  datatype Run = Run(outcome: Outcome, events: seq<Event>)

  predicate IsRelease(e: Event) {
    e.ReleaseFileLock?
  }

  /** `lock_download(remoting_path, local_path, expire=expire, flocker=flocker)` */
  function LockDownload(
    device: string, remote: string, local: string, expire: int, flocker: bool,
    md5: string -> string, w: World): (r: Run)
    requires 0 <= w.draw <= 10 && IsHexDigest(md5(remote))
    // fast path: an existing local or remote file is returned with no lock and no download
    ensures w.localIsFile ==> r == Run(Finished(local), [])
    ensures !w.localIsFile && w.remoteIsFile ==> r == Run(Finished(remote), [])
    // distributed strategy: one opaque call under the device-scoped key
    ensures !w.localIsFile && !w.remoteIsFile && flocker ==>
      r.events == [DistributedDownload(LockKey(device, remote, md5), expire, [local])]
    ensures !w.localIsFile && !w.remoteIsFile && flocker ==>
      r == DistributedRun(LockKey(device, remote, md5), local, expire, w.distributed)
    // file-lock strategy: see FileLockRun
    ensures !w.localIsFile && !w.remoteIsFile && !flocker ==> r == FileLockRun(remote, local, LockFilename(remote, md5), expire, w)
  {
    if w.localIsFile then Run(Finished(local), [])
    else if w.remoteIsFile then Run(Finished(remote), [])
    else if flocker then DistributedRun(LockKey(device, remote, md5), local, expire, w.distributed)
    else FileLockRun(remote, local, LockFilename(remote, md5), expire, w)
  }

  /** `dist_locker(key, self.download, expire, args=(local_path,))`: its result or its exception. */
  function DistributedRun(key: string, local: string, expire: int, result: Result<string, string>): (r: Run)
    ensures r.events == [DistributedDownload(key, expire, [local])]
    ensures r.outcome.Finished? <==> result.Ok?
    ensures result.Ok? ==> r.outcome.path == result.value
    ensures result.Err? ==> r.outcome == Raised(DistributedFailed(result.error))
  {
    var call := DistributedDownload(key, expire, [local]);
    match result
    case Ok(p) => Run(Finished(p), [call])
    case Err(e) => Run(Raised(DistributedFailed(e)), [call])
  }

  /** Only the fast paths leave no trace: every other run calls a lock. */
  lemma OnlyFastPathsLeaveNoTrace(
    device: string, remote: string, local: string, expire: int, flocker: bool,
    md5: string -> string, w: World)
    requires 0 <= w.draw <= 10 && IsHexDigest(md5(remote))
    ensures (w.localIsFile || w.remoteIsFile) <==>
      LockDownload(device, remote, local, expire, flocker, md5, w).events == []
  {
    if !w.localIsFile && !w.remoteIsFile && !flocker {
      var path := LockFilename(remote, md5);
      assert LockDownload(device, remote, local, expire, flocker, md5, w).events[0] == AcquireFileLock(path, expire);
    }
  }

  /** With `flocker=True` the download runs inside the lock service, never in this process. */
  lemma DownloadRunsOnlyUnderFileLock(
    device: string, remote: string, local: string, expire: int,
    md5: string -> string, w: World)
    requires 0 <= w.draw <= 10 && IsHexDigest(md5(remote))
    ensures RunDownload !in LockDownload(device, remote, local, expire, true, md5, w).events
  {
    var events := LockDownload(device, remote, local, expire, true, md5, w).events;
    if events != [] {
      assert |events| == 1 && events[0].DistributedDownload?;
    }
  }

  /**
   * The `flocker=False` branch: `acquire_flock` on the lock file `lockPath`
   * with `timeout=expire`, the re-check, the download, and `release_flock`
   * in the `finally` block.
   */
  function FileLockRun(remote: string, local: string, lockPath: string, expire: int, w: World): (r: Run)
    requires 0 <= w.draw <= 10
    ensures r.events != [] && r.events[0] == AcquireFileLock(lockPath, expire)
    // release on every exit path, exactly once, last
    ensures !r.outcome.Blocked? ==>
      IsRelease(r.events[|r.events| - 1]) && forall i :: 0 <= i < |r.events| - 1 ==> !IsRelease(r.events[i])
    // the release unlocks exactly when acquire_flock returned a handle
    ensures !r.outcome.Blocked? ==>
      (r.events[|r.events| - 1].report == NoHandle <==> r.outcome.Raised? && r.outcome.failure.AcquireFailed?)
    // the download runs only with a handle, and only if the re-check finds no local file
    ensures RunDownload in r.events ==>
      !w.localIsFileAfterAcquire && Returned(AcquireFlock(true, Some(expire), w.openOk, w.firstTry, w.polls))
    ensures !r.outcome.Blocked? && RunDownload !in r.events ==>
      r.outcome == Finished(local) || (r.outcome.Raised? && r.outcome.failure.AcquireFailed?)
    // a blocked run is one whose acquire has not returned: nothing else has happened
    ensures r.outcome.Blocked? <==> |r.events| == 1
    // the outcome follows the acquire result, the re-check and the download
    ensures var acq := AcquireFlock(true, Some(expire), w.openOk, w.firstTry, w.polls);
      && (r.outcome.Blocked? <==> acq.Waiting?)
      && (!acq.Waiting? && !Returned(acq) ==> r.outcome == Raised(AcquireFailed(acq)))
      && (Returned(acq) && w.localIsFileAfterAcquire ==> r.outcome == Finished(local) && RunDownload !in r.events)
      && (Returned(acq) && !w.localIsFileAfterAcquire ==>
            && RunDownload in r.events
            && (w.download.Ok? ==> r.outcome == Finished(w.download.value))
            && (w.download.Err? ==> r.outcome == Raised(DownloadFailed(w.download.error))))
      && (!r.outcome.Blocked? ==>
            r.events[|r.events| - 1] == ReleaseFileLock(ReleaseFlock(Returned(acq), remote, w.draw, w.entries)))
  {
    var acquire := AcquireFileLock(lockPath, expire);
    var acquired := AcquireFlock(true, Some(expire), w.openOk, w.firstTry, w.polls);
    if acquired.Waiting? then Run(Blocked, [acquire])
    else
      var release := ReleaseFileLock(ReleaseFlock(Returned(acquired), remote, w.draw, w.entries));
      if !Returned(acquired) then Run(Raised(AcquireFailed(acquired)), [acquire, release])
      else if w.localIsFileAfterAcquire then Run(Finished(local), [acquire, release])
      else
        match w.download
        case Ok(p) => Run(Finished(p), [acquire, RunDownload, release])
        case Err(e) => Run(Raised(DownloadFailed(e)), [acquire, RunDownload, release])
  }

  /**
   * A download that raises still releases the lock it ran under: the next
   * attempt finds the lock file unlocked.
   */
  lemma FailedDownloadReleases(
    device: string, remote: string, local: string, expire: int,
    md5: string -> string, w: World, reason: string)
    requires 0 <= w.draw <= 10 && IsHexDigest(md5(remote))
    requires !w.localIsFile && !w.remoteIsFile && !w.localIsFileAfterAcquire
    requires Returned(AcquireFlock(true, Some(expire), w.openOk, w.firstTry, w.polls))
    requires w.download == Err(reason)
    ensures var r := LockDownload(device, remote, local, expire, false, md5, w);
      r.outcome == Raised(DownloadFailed(reason)) &&
      r.events[|r.events| - 1].ReleaseFileLock? && r.events[|r.events| - 1].report.Unlocked?
  {
    var path := LockFilename(remote, md5);
    FileLockReleasesAfterFailure(remote, local, path, expire, w, reason);
    assert LockDownload(device, remote, local, expire, false, md5, w) == FileLockRun(remote, local, path, expire, w);
  }

  lemma FileLockReleasesAfterFailure(remote: string, local: string, lockPath: string, expire: int, w: World, reason: string)
    requires 0 <= w.draw <= 10 && !w.localIsFileAfterAcquire
    requires Returned(AcquireFlock(true, Some(expire), w.openOk, w.firstTry, w.polls))
    requires w.download == Err(reason)
    ensures var r := FileLockRun(remote, local, lockPath, expire, w);
      r.outcome == Raised(DownloadFailed(reason)) &&
      r.events[|r.events| - 1].ReleaseFileLock? && r.events[|r.events| - 1].report.Unlocked?
  {
    var r := FileLockRun(remote, local, lockPath, expire, w);
    assert r.events[|r.events| - 1] == ReleaseFileLock(ReleaseFlock(true, remote, w.draw, w.entries));
  }
}

=== FILE: lock_names.dfy ===
/**
 * Names of the two locks that guard a download: the key of the distributed
 * lock (`get_lock_key`) and the path of the advisory lock file
 * (`get_lock_filename`). Both are scoped by the reference's basename and the
 * first eight hex digits of its MD5 digest; the digest itself is a parameter.
 */
module LockNames {
  import opened Results
  import opened Strings
  import opened PosixPath

  /** `get_host_name() or get_host_ip()`: the host name unless it is empty. */
  function DeviceId(hostName: string, hostIp: string): (d: string)
    ensures d == hostName || d == hostIp
    ensures d == hostIp <== hostName == ""
    ensures hostName != "" ==> d == hostName
  {
    if hostName != "" then hostName else hostIp
  }

  predicate IsHexDigit(c: char) {
    '0' <= c <= '9' || 'a' <= c <= 'f'
  }

  predicate IsHex(s: string) {
    forall k :: 0 <= k < |s| ==> IsHexDigit(s[k])
  }

  /** What `hashlib.md5(...).hexdigest()` returns: 32 lower-case hex digits. */
  predicate IsHexDigest(s: string) {
    |s| == 32 && IsHex(s)
  }

  /** `md5.hexdigest()[:8]` */
  function Hash8(keyname: string, md5: string -> string): (h: string)
    requires IsHexDigest(md5(keyname))
    ensures |h| == 8 && IsHex(h)
    ensures forall k :: 0 <= k < 8 ==> h[k] == md5(keyname)[k]
  {
    md5(keyname)[..8]
  }

  /** `f"{device_id}:{basename}[{hash8}]"` */
  function LockKey(device: string, keyname: string, md5: string -> string): (k: string)
    requires IsHexDigest(md5(keyname))
    ensures |k| == |device| + |Basename(keyname)| + 11
  {
    device + ":" + Basename(keyname) + "[" + Hash8(keyname, md5) + "]"
  }

  /** A lock key starts with its device scope and reads back into the reference's basename and hash. */
  lemma LockKeyParses(device: string, keyname: string, md5: string -> string)
    requires IsHexDigest(md5(keyname))
    ensures var key := LockKey(device, keyname, md5);
      StartsWith(key, device + ":") && ParseLockKey(device, key) == Some((Basename(keyname), Hash8(keyname, md5)))
  {
    LockKeyShape(device, Basename(keyname), Hash8(keyname, md5));
  }

  lemma LockKeyShape(device: string, b: string, h: string)
    requires |h| == 8 && IsHex(h)
    ensures var key := device + ":" + b + "[" + h + "]";
      StartsWith(key, device + ":") && ParseLockKey(device, key) == Some((b, h))
  {
    var key := device + ":" + b + "[" + h + "]";
    assert key[..|device| + 1] == device + ":";
    assert key[|device| + 1..|key| - 10] == b;
    assert key[|key| - 9..|key| - 1] == h;
  }

  /** Reads a lock key back into its basename and hash, given the device. */
  function ParseLockKey(device: string, key: string): Option<(string, string)>
  {
    if |key| >= |device| + 11 && key[..|device| + 1] == device + ":"
      && key[|key| - 10] == '[' && key[|key| - 1] == ']' && IsHex(key[|key| - 9..|key| - 1])
    then Some((key[|device| + 1..|key| - 10], key[|key| - 9..|key| - 1]))
    else None
  }

  /**
   * Two references share a distributed lock on a device exactly when their
   * basenames and hash prefixes agree: the scope is coarser than the full path.
   */
  lemma LockKeyScope(device: string, k1: string, k2: string, md5: string -> string)
    requires IsHexDigest(md5(k1)) && IsHexDigest(md5(k2))
    ensures LockKey(device, k1, md5) == LockKey(device, k2, md5) <==>
      Basename(k1) == Basename(k2) && Hash8(k1, md5) == Hash8(k2, md5)
  {
    LockKeyParses(device, k1, md5);
    LockKeyParses(device, k2, md5);
    if LockKey(device, k1, md5) == LockKey(device, k2, md5) {
      assert ParseLockKey(device, LockKey(device, k1, md5)) == ParseLockKey(device, LockKey(device, k2, md5));
    }
  }

  const LockDir: string := "models/Stable-diffusion"

  /** `f"{stem}[{hash8}].lock"` */
  function LockName(stem: string, h: string): string {
    stem + "[" + h + "].lock"
  }

  /** `os.path.join("models", "Stable-diffusion", f"{stem}[{hash8}].lock")` */
  function LockFilename(keyname: string, md5: string -> string): (path: string)
    requires IsHexDigest(md5(keyname))
    ensures path == LockDir + "/" + Basename(path)
    ensures Basename(path) == LockName(Stem(keyname), Hash8(keyname, md5))
    ensures EndsWith(path, ".lock") && Ext(path) == ".lock"
    ensures ParseLockFile(path) == Some((Stem(keyname), Hash8(keyname, md5)))
  {
    var name := LockName(Stem(keyname), Hash8(keyname, md5));
    StemHasNoSlash(keyname);
    LockFileShape(LockDir, Stem(keyname), Hash8(keyname, md5));
    JoinLockDir(name);
    Join(Join("models", "Stable-diffusion"), name)
  }

  lemma JoinLockDir(name: string)
    requires !StartsWith(name, "/")
    ensures Join(Join("models", "Stable-diffusion"), name) == LockDir + "/" + name
  {
    LockDirIsJoined();
    assert LockDir[|LockDir| - 1..][0] == 'n';
    assert !EndsWith(LockDir, "/");
  }

  lemma LockDirIsJoined()
    ensures Join("models", "Stable-diffusion") == LockDir
  {
    assert "Stable-diffusion"[..1][0] == 'S';
    assert "models"[|"models"| - 1..][0] == 's';
    assert "models" + "/" + "Stable-diffusion" == LockDir;
  }

  lemma StemHasNoSlash(keyname: string)
    ensures '/' !in Stem(keyname)
  {
    var b := Basename(keyname);
    var i := ExtStart(b);
    if i >= 0 {
      assert forall k :: 0 <= k < i ==> b[..i][k] == b[k];
    }
  }

  /** A lock file path has the `.lock` extension by `splitext`'s rules, and parses back. */
  lemma LockFileShape(dir: string, stem: string, h: string)
    requires '/' !in stem && |h| == 8 && IsHex(h) && dir == LockDir
    ensures var name := LockName(stem, h);
      && !StartsWith(name, "/")
      && Basename(dir + "/" + name) == name
      && EndsWith(dir + "/" + name, ".lock") && Ext(dir + "/" + name) == ".lock"
      && ParseLockFile(dir + "/" + name) == Some((stem, h))
  {
    var name := LockName(stem, h);
    LockNameHasNoSlash(stem, h);
    assert name[|name| - 5..] == ".lock";
    assert name[|stem|] == '[';
    assert name[0] != '/' by {
      if |stem| > 0 {
        assert name[0] == stem[0];
      }
    }
    BasenameAfterSlash(dir, name);
    DotLockExt(dir, name, |stem|);
    LockPathParses(dir, stem, h);
  }

  lemma LockNameHasNoSlash(stem: string, h: string)
    requires '/' !in stem && |h| == 8 && IsHex(h)
    ensures '/' !in LockName(stem, h)
  {
    var name := LockName(stem, h);
    forall k | 0 <= k < |name| ensures name[k] != '/' {
      if k < |stem| {
        assert name[k] == stem[k];
      } else if |stem| < k < |stem| + 9 {
        assert name[k] == h[k - |stem| - 1];
        assert IsHexDigit(h[k - |stem| - 1]);
      }
    }
  }

  lemma BasenameAfterSlash(dir: string, name: string)
    requires '/' !in name
    ensures Basename(dir + "/" + name) == name
  {
    var path := dir + "/" + name;
    assert path[|dir|] == '/';
    assert path[|dir| + 1..] == name;
    RFindAt(path, '/', |dir|);
  }

  /** A name ending in `.lock`, with something other than a dot before that, has extension `.lock`. */
  lemma DotLockExt(dir: string, name: string, k: nat)
    requires '/' !in name && |name| >= 6 && name[|name| - 5..] == ".lock"
    requires k < |name| - 5 && name[k] != '.'
    ensures EndsWith(dir + "/" + name, ".lock") && Ext(dir + "/" + name) == ".lock"
  {
    var path := dir + "/" + name;
    var sep := |dir|;
    var dot := |path| - 5;
    assert path[sep] == '/';
    assert path[sep + 1..] == name;
    RFindAt(path, '/', sep);
    assert path[dot..] == name[|name| - 5..];
    assert path[dot] == '.';
    assert path[dot + 1..] == "lock";
    RFindAt(path, '.', dot);
    assert path[sep + 1..dot][k] == name[k];
    assert !AllDots(path[sep + 1..dot]);
  }

  lemma LockPathParses(dir: string, stem: string, h: string)
    requires |h| == 8 && IsHex(h) && dir == LockDir
    ensures ParseLockFile(dir + "/" + LockName(stem, h)) == Some((stem, h))
  {
    var path := dir + "/" + LockName(stem, h);
    assert path[..|dir| + 1] == dir + "/";
    assert path[|dir| + 1..|path| - 15] == stem;
    assert path[|path| - 14..|path| - 6] == h;
    assert path[|path| - 6..] == "].lock";
  }

  /** Reads a lock file path back into its stem and hash. */
  function ParseLockFile(path: string): Option<(string, string)>
  {
    if |path| >= |LockDir| + 16 && path[..|LockDir| + 1] == LockDir + "/"
      && path[|path| - 15] == '[' && path[|path| - 6..] == "].lock" && IsHex(path[|path| - 14..|path| - 6])
    then Some((path[|LockDir| + 1..|path| - 15], path[|path| - 14..|path| - 6]))
    else None
  }

  /** Two references share a lock file exactly when their stems and hash prefixes agree. */
  lemma LockFileScope(k1: string, k2: string, md5: string -> string)
    requires IsHexDigest(md5(k1)) && IsHexDigest(md5(k2))
    ensures LockFilename(k1, md5) == LockFilename(k2, md5) <==>
      Stem(k1) == Stem(k2) && Hash8(k1, md5) == Hash8(k2, md5)
  {
    if LockFilename(k1, md5) == LockFilename(k2, md5) {
      assert ParseLockFile(LockFilename(k1, md5)) == ParseLockFile(LockFilename(k2, md5));
    }
  }
}

=== FILE: posix_path.dfy ===
/** The `os.path` functions of a POSIX host (`posixpath`), over plain strings. */
module PosixPath {
  import opened Strings

  /** `os.path.basename(p)`: the text after the last `/`. */
  function Basename(p: string): (b: string)
    ensures '/' !in b
    ensures EndsWith(p, b)
    ensures |b| < |p| ==> p[|p| - |b| - 1] == '/'
  {
    var i := RFind(p, '/');
    assert p[|p| - |p[i + 1..]|..] == p[i + 1..];
    p[i + 1..]
  }

  predicate AllDots(s: string) {
    forall k :: 0 <= k < |s| ==> s[k] == '.'
  }

  /**
   * `os.path.splitext(p)`: the extension starts at the last `.` of the last
   * component, provided something other than dots comes before it in that
   * component (so `.bashrc` and `..` have no extension).
   */
  function SplitExt(p: string): (parts: (string, string))
    ensures parts.0 + parts.1 == p
    ensures parts.1 == "" || (parts.1[0] == '.' && '/' !in parts.1 && '.' !in parts.1[1..])
  {
    var i := ExtStart(p);
    if i < 0 then (p, "")
    else
      assert p[i..][1..] == p[i + 1..];
      (p[..i], p[i..])
  }

  /**
   * There is an extension exactly when the last `.` comes after the last `/`
   * with something other than dots between them, and then the cut is at
   * that `.`.
   */
  lemma SplitExtRule(p: string)
    ensures var parts, sep, dot := SplitExt(p), RFind(p, '/'), RFind(p, '.');
      && (parts.1 != "" <==> dot > sep && !AllDots(p[sep + 1..dot]))
      && (parts.1 != "" ==> |parts.0| == dot)
  {
  }

  /** Where `splitext` cuts `p`, or -1 when it has no extension. */
  function ExtStart(p: string): (i: int)
    ensures i == -1 || (0 <= i < |p| && p[i] == '.' && '.' !in p[i + 1..] && '/' !in p[i..])
  {
    var sep := RFind(p, '/');
    var dot := RFind(p, '.');
    if dot > sep && !AllDots(p[sep + 1..dot]) then
      NoSlashAfter(p, sep, dot);
      dot
    else -1
  }

  lemma NoSlashAfter(p: string, sep: int, dot: int)
    requires -1 <= sep < dot < |p| && p[dot] != '/' && '/' !in p[sep + 1..]
    ensures '/' !in p[dot..]
  {
    assert forall k :: dot <= k < |p| ==> p[k] == p[sep + 1..][k - sep - 1];
  }

  /** `os.path.splitext(p)[1]` */
  function Ext(p: string): string {
    SplitExt(p).1
  }

  /** `os.path.splitext(os.path.basename(p))[0]` */
  function Stem(p: string): string {
    SplitExt(Basename(p)).0
  }

  /** `os.path.join(a, b)`: an absolute `b` discards `a`. */
  function Join(a: string, b: string): (r: string)
    ensures EndsWith(r, b)
    ensures !StartsWith(b, "/") ==> StartsWith(r, a)
    ensures StartsWith(b, "/") ==> r == b
    ensures !StartsWith(b, "/") && (a == "" || EndsWith(a, "/")) ==> r == a + b
    ensures !StartsWith(b, "/") && a != "" && !EndsWith(a, "/") ==> r == a + "/" + b
  {
    if StartsWith(b, "/") then b
    else if a == "" || EndsWith(a, "/") then
      assert (a + b)[..|a|] == a;
      a + b
    else
      assert (a + "/" + b)[..|a|] == a;
      a + "/" + b
  }

  /** Joining a relative name onto a directory not ending in `/` inserts exactly one separator. */
  lemma JoinRelative(a: string, b: string)
    requires a != "" && !EndsWith(a, "/") && !StartsWith(b, "/")
    ensures Join(a, b) == a + "/" + b
    ensures Basename(Join(a, b)) == Basename(b)
  {
    var r := a + "/" + b;
    if '/' in b {
      var i := RFind(b, '/');
      assert RFind(r, '/') == |a| + 1 + i by {
        assert r[|a| + 1 + i] == '/';
        assert r[|a| + 1 + i + 1..] == b[i + 1..];
      }
    } else {
      assert RFind(r, '/') == |a| by {
        assert r[|a|] == '/';
        assert r[|a| + 1..] == b;
      }
    }
  }

  /** `os.path.dirname(p)`: everything before the last `/`, trailing slashes dropped unless all slashes. */
  function Dirname(p: string): (d: string)
    ensures StartsWith(p, d)
    ensures '/' !in p ==> d == ""
    // with a separator: a non-empty directory, followed only by separators up to the last one
    ensures '/' in p ==> d != "" && |d| <= RFind(p, '/') + 1
    ensures '/' in p ==> forall k :: |d| <= k <= RFind(p, '/') ==> p[k] == '/'
    // a trailing separator is kept only when the directory is the root, all separators
    ensures |d| > 0 && d[|d| - 1] == '/' ==> AllSlashes(d) && d == p[..RFind(p, '/') + 1]
  {
    var head := p[..RFind(p, '/') + 1];
    if head != "" && !AllSlashes(head) then RStrip(head, {'/'}) else head
  }

  predicate AllSlashes(s: string) {
    forall k :: 0 <= k < |s| ==> s[k] == '/'
  }

  /** The directory of `dir/name` is `dir` when `dir` is non-empty and does not end in `/`. */
  lemma DirnameOfChild(dir: string, name: string)
    requires '/' !in name && dir != "" && dir[|dir| - 1] != '/'
    ensures Dirname(dir + "/" + name) == dir
  {
    var p := dir + "/" + name;
    assert p[|dir|] == '/';
    assert p[|dir| + 1..] == name;
    RFindAt(p, '/', |dir|);
    var head := p[..|dir| + 1];
    assert head == dir + "/";
    assert head[|dir| - 1] != '/';
    assert RStrip(head, {'/'}) == RStrip(dir, {'/'});
  }

  /** A dot followed by neither a further dot nor a separator: what `splitext` can return as an extension. */
  predicate IsExtension(e: string) {
    |e| > 0 && e[0] == '.' && '.' !in e[1..] && '/' !in e
  }

  lemma LastDotStartsExtension(stem: string, e: string)
    requires IsExtension(e)
    ensures RFind(stem + e, '.') == |stem|
  {
    var p := stem + e;
    assert p[|stem| + 1..] == e[1..];
    RFindAt(p, '.', |stem|);
  }

  lemma LastSlashBeforeExtension(stem: string, e: string)
    requires IsExtension(e)
    ensures RFind(stem + e, '/') < |stem|
  {
    var p := stem + e;
    assert forall k :: |stem| <= k < |p| ==> p[k] == e[k - |stem|];
  }

  /** A name whose last character is neither `.` nor `/`, followed by an extension, splits at that extension. */
  lemma ExtOfName(stem: string, e: string)
    requires |stem| > 0 && stem[|stem| - 1] != '.' && stem[|stem| - 1] != '/'
    requires IsExtension(e)
    ensures Ext(stem + e) == e
  {
    var p := stem + e;
    LastDotStartsExtension(stem, e);
    LastSlashBeforeExtension(stem, e);
    var sep := RFind(p, '/');
    assert p[sep + 1..|stem|][|stem| - sep - 2] == stem[|stem| - 1];
    assert ExtStart(p) == |stem|;
    assert p[|stem|..] == e;
  }
}

=== FILE: privatization.dfy ===
/**
 * `PrivatizationFileStorage`, the local pass-through backend: `download`
 * (existing file, local copy, or HTTP fetch through a staging file under
 * `tmp/`), the `Content-Disposition` filename, `upload`, `upload_content`
 * and `preview_url`.
 *
 * The filesystem is seen through the existence checks the code makes; the
 * HTTP fetch is `Http.HttpRequest` over an oracle of attempt outcomes.
 */
module Privatization {
  import opened Results
  import opened Strings
  import opened PosixPath
  import opened Dicts
  import Http

  /** `self.tmp_dir = os.path.join('tmp')` */
  const TmpDir: string := "tmp"

  /** `name()` */
  function Name(): string {
    "default"
  }

  /**
   * `p` is the key and value read from the front of `s`: the text before the
   * first `=` and the text from there up to the end or to a second `=`.
   */
  predicate PairAtFront(s: string, p: (string, string)) {
    var n := |p.0| + |p.1| + 1;
    && '=' !in p.0 && '=' !in p.1
    && n <= |s| && s[..n] == p.0 + "=" + p.1
    && (n < |s| ==> s[n] == '=')
  }

  /** One parameter item holding `=`: a key and a value, neither holding `=`. */
  function ParamPair(item: string): (p: (string, string))
    requires '=' in item
    ensures '=' !in p.0 && '=' !in p.1
  {
    EqualsSurvivesStrip(item);
    FrontPair(Strip(item, Whitespace))
  }

  /** The item, once stripped of whitespace, is read as the key and value at its front. */
  lemma ParamPairReadsFront(item: string)
    requires '=' in item
    ensures PairAtFront(Strip(item, Whitespace), ParamPair(item))
  {
    EqualsSurvivesStrip(item);
    var p := FrontPair(Strip(item, Whitespace));
  }

  lemma EqualsSurvivesStrip(item: string)
    requires '=' in item
    ensures '=' in Strip(item, Whitespace)
  {
    assert '=' !in Whitespace;
    StripKeeps(item, Whitespace, '=');
  }

  /** The first two `=`-pieces of a string holding `=`. */
  function FrontPair(s: string): (p: (string, string))
    requires '=' in s
    ensures PairAtFront(s, p)
  {
    var parts := Split(s, '=');
    SplitFirstTwo(s, '=');
    (parts[0], parts[1])
  }

  /** The key of a pair at the front ends at the first `=`. */
  lemma PairAtFrontKey(s: string, p: (string, string))
    requires PairAtFront(s, p)
    ensures |p.0| == Find(s, '=') && p.0 == s[..|p.0|]
  {
    var n := |p.0| + |p.1| + 1;
    assert s[..n][|p.0|] == '=';
    assert s[..|p.0|] == s[..n][..|p.0|];
    FindAt(s, '=', |p.0|);
  }

  /** The value of a pair at the front runs to the next `=` after the key, or to the end. */
  lemma PairAtFrontValue(s: string, p: (string, string))
    requires PairAtFront(s, p)
    ensures var t := s[|p.0| + 1..];
      && p.1 == t[..|p.1|]
      && |p.1| == (if Find(t, '=') < 0 then |t| else Find(t, '='))
  {
    var n := |p.0| + |p.1| + 1;
    var t := s[|p.0| + 1..];
    assert t[..|p.1|] == s[..n][|p.0| + 1..];
    if n < |s| {
      assert t[|p.1|] == s[n];
      FindAt(t, '=', |p.1|);
    } else {
      assert t == p.1;
    }
  }

  /** A string has at most one pair at its front. */
  lemma PairAtFrontUnique(s: string, p: (string, string), q: (string, string))
    requires PairAtFront(s, p) && PairAtFront(s, q)
    ensures p == q
  {
    PairAtFrontKey(s, p);
    PairAtFrontKey(s, q);
    PairAtFrontValue(s, p);
    PairAtFrontValue(s, q);
  }

  /** A `key=value` item whose ends are not whitespace parses back into its key and value. */
  lemma ParamPairRoundTrip(k: string, v: string)
    requires '=' !in k && '=' !in v
    requires |k| > 0 ==> k[0] !in Whitespace
    requires |v| > 0 ==> v[|v| - 1] !in Whitespace
    ensures ParamPair(k + "=" + v) == (k, v)
  {
    var item := k + "=" + v;
    JoinedEndsAreNotSpace(k, v);
    StripUnchanged(item, Whitespace);
    JoinedIsPairAtFront(k, v);
    ParamPairReadsFront(item);
    PairAtFrontUnique(item, ParamPair(item), (k, v));
  }

  lemma JoinedEndsAreNotSpace(k: string, v: string)
    requires |k| > 0 ==> k[0] !in Whitespace
    requires |v| > 0 ==> v[|v| - 1] !in Whitespace
    ensures var item := k + "=" + v;
      '=' in item && item[0] !in Whitespace && item[|item| - 1] !in Whitespace
  {
    var item := k + "=" + v;
    assert item[|k|] == '=';
    assert '=' !in Whitespace;
  }

  lemma JoinedIsPairAtFront(k: string, v: string)
    requires '=' !in k && '=' !in v
    ensures PairAtFront(k + "=" + v, (k, v))
  {
    var item := k + "=" + v;
    assert item[..|item|] == item;
  }

  /** The items of a `Content-Disposition` value that hold a `=`, in order. */
  function WithEquals(items: seq<string>): (r: seq<string>)
    ensures |r| <= |items|
    ensures forall i :: 0 <= i < |r| ==> '=' in r[i]
  {
    if |items| == 0 then []
    else if '=' in items[0] then [items[0]] + WithEquals(items[1..])
    else WithEquals(items[1..])
  }

  /** Filtering keeps exactly the items that hold a `=`. */
  lemma {:induction false} WithEqualsKeeps(items: seq<string>, x: string)
    ensures x in WithEquals(items) <==> x in items && '=' in x
  {
    if |items| > 0 {
      WithEqualsKeeps(items[1..], x);
      assert items == [items[0]] + items[1..];
    }
  }

  /** Filtering keeps the order: a further item is appended to the filtered ones exactly when it holds a `=`. */
  lemma {:induction false} WithEqualsSnoc(items: seq<string>, x: string)
    ensures WithEquals(items + [x]) == WithEquals(items) + (if '=' in x then [x] else [])
  {
    if |items| > 0 {
      assert (items + [x])[1..] == items[1..] + [x];
      WithEqualsSnoc(items[1..], x);
    }
  }

  /** The `(key, value)` pairs of a `Content-Disposition` value: one per `;`-item that holds a `=`, in order. */
  function DispositionPairs(items: seq<string>): (pairs: seq<(string, string)>)
    ensures |pairs| == |WithEquals(items)|
    ensures forall i :: 0 <= i < |pairs| ==> '=' !in pairs[i].0 && '=' !in pairs[i].1
  {
    PairsOf(WithEquals(items))
  }

  /** Each pair is read from the item holding `=` at the same position. */
  lemma DispositionPairsInOrder(items: seq<string>)
    ensures forall i :: 0 <= i < |DispositionPairs(items)| ==>
      DispositionPairs(items)[i] == ParamPair(WithEquals(items)[i])
  {
  }

  /** The pairs read from items that all hold `=`, one per item. */
  function PairsOf(items: seq<string>): (pairs: seq<(string, string)>)
    requires forall i :: 0 <= i < |items| ==> '=' in items[i]
    ensures |pairs| == |items|
    ensures forall i :: 0 <= i < |pairs| ==> pairs[i] == ParamPair(items[i])
    ensures forall i :: 0 <= i < |pairs| ==> '=' !in pairs[i].0 && '=' !in pairs[i].1
  {
    if |items| == 0 then []
    else
      var rest := PairsOf(items[1..]);
      PairsOfCons(items, rest);
      [ParamPair(items[0])] + rest
  }

  lemma PairsOfCons(items: seq<string>, rest: seq<(string, string)>)
    requires |items| > 0 && forall i :: 0 <= i < |items| ==> '=' in items[i]
    requires |rest| == |items| - 1
    requires forall i :: 0 <= i < |rest| ==> rest[i] == ParamPair(items[1..][i])
    ensures forall i :: 0 <= i < |items| ==> ([ParamPair(items[0])] + rest)[i] == ParamPair(items[i])
  {
    MapCons(ParamPair, items, rest);
  }

  /** Prepending `f` of the first item to `f` of the others gives `f` of every item. */
  lemma MapCons<A, B>(f: A --> B, items: seq<A>, rest: seq<B>)
    requires |items| > 0 && forall i :: 0 <= i < |items| ==> f.requires(items[i])
    requires |rest| == |items| - 1
    requires forall i :: 0 <= i < |rest| ==> rest[i] == f(items[1..][i])
    ensures forall i :: 0 <= i < |items| ==> ([f(items[0])] + rest)[i] == f(items[i])
  {
    forall i | 0 < i < |items|
      ensures rest[i - 1] == f(items[i])
    {
      assert items[1..][i - 1] == items[i];
    }
  }

  /**
   * The `filename` parameter of a `Content-Disposition` value, double
   * quotes stripped from both ends: taken from the last item so named, and
   * absent exactly when no item is.
   */
  function DispositionFilename(cd: string): (f: Option<string>)
    ensures f.Some? ==> '=' !in f.value
    ensures f.Some? && |f.value| > 0 ==> f.value[0] != '"' && f.value[|f.value| - 1] != '"'
    ensures var last := LastValue(DispositionPairs(Split(cd, ';')), "filename");
      && (f.Some? <==> last.Some?)
      && (last.Some? ==> f.value == Strip(last.value, {'"'}))
  {
    FilenameParam(DispositionPairs(Split(cd, ';')))
  }

  /** `dict(pairs)`, then its `filename` entry with double quotes stripped. */
  function FilenameParam(pairs: seq<(string, string)>): (f: Option<string>)
    requires forall i :: 0 <= i < |pairs| ==> '=' !in pairs[i].1
    ensures f.Some? ==> '=' !in f.value
    ensures f.Some? && |f.value| > 0 ==> f.value[0] != '"' && f.value[|f.value| - 1] != '"'
    ensures var last := LastValue(pairs, "filename");
      && (f.Some? <==> last.Some?)
      && (last.Some? ==> f.value == Strip(last.value, {'"'}))
  {
    var params := Update(map[], pairs);
    UpdateLastWins(map[], pairs, "filename");
    if "filename" in params then
      var v := params["filename"];
      assert '=' !in v by {
        var i :| 0 <= i < |pairs| && pairs[i] == ("filename", v);
      }
      StripAddsNothing(v, {'"'}, '=');
      Some(Strip(v, {'"'}))
    else None
  }

  /** What the filesystem shows `download`. */
  datatype Disk = Disk(
    localIsFile: bool,     // os.path.isfile(local_path)
    remoteIsFile: bool,    // os.path.isfile(remoting_path)
    stagingIsFile: bool,   // os.path.isfile(tmp/<basename>)
    localIsDir: bool)      // os.path.isdir(local_path), checked after the body is written

  datatype Step =
    | Copy(src: string, dst: string)
    | Fetch(url: string)
    | WriteStaging(path: string)
    | Move(src: string, dst: string)

  datatype StorageError =
    | UnsupportedSource(reference: string)   // "unsupported file"
    | RequestFailed(cause: Http.HttpError)
    | StagingMissing(path: string)           // shutil.move from a staging file never written
    | StagingIsDirectory(path: string)       // open(filepath, 'wb') on the `tmp` directory itself

  datatype Transfer = Transfer(result: Result<string, StorageError>, steps: seq<Step>)

  /** The staging file is named from the URL's basename, whatever the response says. */
  function StagingPath(remote: string): string {
    Join(TmpDir, Basename(remote))
  }

  /**
   * A reference whose basename is empty (`http://host/`) stages at `tmp/`:
   * the temporary directory itself, which the constructor always creates.
   */
  predicate StagingIsTmpDir(remote: string) {
    Basename(remote) == ""
  }

  /** The staging file sits directly inside the temporary directory and keeps the URL's basename. */
  lemma StagingPathInTmp(remote: string)
    ensures StagingPath(remote) == TmpDir + "/" + Basename(remote)
    ensures Basename(StagingPath(remote)) == Basename(remote)
  {
    var b := Basename(remote);
    assert !StartsWith(b, "/") by {
      if |b| > 0 {
        assert b[0] != '/';
      }
    }
    JoinRelative(TmpDir, b);
  }

  /** The name the fetched file takes inside a destination directory. */
  function FinalName(remote: string, resp: Http.Response): string {
    match resp.contentDisposition
    case None => Basename(remote)
    case Some(cd) =>
      match DispositionFilename(cd)
      case None => Basename(remote)
      case Some(f) => f
  }

  /**
   * The fetched file is named by the last `filename` parameter of the
   * response's `Content-Disposition`, quotes stripped, and otherwise by the
   * URL's basename.
   */
  lemma FinalNamePrefersDisposition(remote: string, resp: Http.Response)
    ensures resp.contentDisposition.None? ==> FinalName(remote, resp) == Basename(remote)
    ensures resp.contentDisposition.Some? ==>
      var last := LastValue(DispositionPairs(Split(resp.contentDisposition.value, ';')), "filename");
      && (last.None? ==> FinalName(remote, resp) == Basename(remote))
      && (last.Some? ==> FinalName(remote, resp) == Strip(last.value, {'"'}))
  {
    if resp.contentDisposition.Some? {
      NameFromDisposition(remote, resp, resp.contentDisposition.value);
    }
  }

  lemma NameFromDisposition(remote: string, resp: Http.Response, cd: string)
    requires resp.contentDisposition == Some(cd)
    ensures var f := DispositionFilename(cd);
      && (f.None? ==> FinalName(remote, resp) == Basename(remote))
      && (f.Some? ==> FinalName(remote, resp) == f.value)
  {
  }

  /** An ok response: the body goes to the staging file, which moves to `local_path` or, for a directory, to the given name inside it. */
  function Deliver(remote: string, local: string, localIsDir: bool, name: string): (t: Transfer)
    ensures t.result.Ok?
    ensures t.steps == [Fetch(remote), WriteStaging(StagingPath(remote)), Move(StagingPath(remote), t.result.value)]
    ensures localIsDir ==> t.result.value == Join(local, name)
    ensures !localIsDir ==> t.result.value == local
  {
    var dest := if localIsDir then Join(local, name) else local;
    Transfer(Ok(dest), [Fetch(remote), WriteStaging(StagingPath(remote)), Move(StagingPath(remote), dest)])
  }

  /** The request `download` sends: a GET with the default headers, no body, no proxy. */
  function GetRequest(remote: string, agent: string, outcomes: seq<Http.Attempt>): Result<Http.Exchange, Http.HttpError>
    requires Http.MaxAttempts <= |outcomes|
  {
    Http.HttpRequest(remote, "GET", None, Http.NoBody, false, map[], agent, outcomes)
  }

  /**
   * The HTTP branch of `download`, once no staging file is present: fetch,
   * write the staging file on an ok response, move it into place. The move
   * runs whatever the response: after a non-ok one it moves a staging file
   * never written, which fails, unless the staging path is the `tmp`
   * directory, which is then moved to `local_path` and reported as success.
   */
  function FetchInto(remote: string, local: string, localIsDir: bool, reply: Result<Http.Exchange, Http.HttpError>): (t: Transfer)
    ensures |t.steps| >= 1 && t.steps[0] == Fetch(remote)
    ensures !StagingIsTmpDir(remote) ==> (WriteStaging(StagingPath(remote)) in t.steps <==> t.result.Ok?)
    ensures t.result.Ok? && !StagingIsTmpDir(remote) ==>
      t.steps == [Fetch(remote), WriteStaging(StagingPath(remote)), Move(StagingPath(remote), t.result.value)]
    ensures t.result.Ok? && StagingIsTmpDir(remote) ==>
      t == Transfer(Ok(local), [Fetch(remote), Move(StagingPath(remote), local)])
    ensures t.result.Ok? && t.result.value != local ==> localIsDir
    ensures t.result.Err? ==> t.steps == [Fetch(remote)] || t.steps == [Fetch(remote), Move(StagingPath(remote), local)]
    ensures t.result.Err? ==> !t.result.error.UnsupportedSource?
    ensures reply.Err? ==> t == Transfer(Err(RequestFailed(reply.error)), [Fetch(remote)])
    // an ok result follows an ok response, except at the `tmp` directory, where it is the other way round
    ensures reply.Ok? && !StagingIsTmpDir(remote) ==> (t.result.Ok? <==> Http.IsOk(reply.value.response))
    ensures reply.Ok? && StagingIsTmpDir(remote) ==> (t.result.Ok? <==> !Http.IsOk(reply.value.response))
  {
    var staging := StagingPath(remote);
    match reply
    case Err(e) => Transfer(Err(RequestFailed(e)), [Fetch(remote)])
    case Ok(exchange) =>
      if !Http.IsOk(exchange.response) then
        if StagingIsTmpDir(remote) then
          Transfer(Ok(local), [Fetch(remote), Move(staging, local)])
        else Transfer(Err(StagingMissing(staging)), [Fetch(remote), Move(staging, local)])
      else if StagingIsTmpDir(remote) then Transfer(Err(StagingIsDirectory(staging)), [Fetch(remote)])
      else Deliver(remote, local, localIsDir, FinalName(remote, exchange.response))
  }

  /**
   * `FetchInto` as evidently intended: a response that is not ok never
   * yields a result, so the `tmp` directory is never moved.
   */
  function FetchIntoIntended(remote: string, local: string, localIsDir: bool, reply: Result<Http.Exchange, Http.HttpError>): (t: Transfer)
    ensures t.result.Ok? ==> reply.Ok? && Http.IsOk(reply.value.response)
    ensures reply.Ok? ==> (t.result.Ok? <==> Http.IsOk(reply.value.response) && !StagingIsTmpDir(remote))
    // at the `tmp` directory nothing is written or moved
    ensures StagingIsTmpDir(remote) ==> |t.steps| == 1
  {
    match reply
    case Ok(exchange) =>
      if !Http.IsOk(exchange.response) && StagingIsTmpDir(remote) then
        Transfer(Err(StagingMissing(StagingPath(remote))), [Fetch(remote)])
      else FetchInto(remote, local, localIsDir, reply)
    case Err(_) => FetchInto(remote, local, localIsDir, reply)
  }

  /** The correction changes nothing for a reference with a basename. */
  lemma IntendedAgreesWithBasename(remote: string, local: string, localIsDir: bool, reply: Result<Http.Exchange, Http.HttpError>)
    requires !StagingIsTmpDir(remote)
    ensures FetchIntoIntended(remote, local, localIsDir, reply) == FetchInto(remote, local, localIsDir, reply)
  {
  }

  /** `download(remoting_path, local_path)` */
  function Download(remote: string, local: string, disk: Disk, agent: string, outcomes: seq<Http.Attempt>): (t: Transfer)
    requires Http.MaxAttempts <= |outcomes|
    ensures disk.localIsFile ==> t == Transfer(Ok(local), [])
    ensures !disk.localIsFile && disk.remoteIsFile ==> t == Transfer(Ok(local), [Copy(remote, local)])
    ensures !disk.localIsFile && !disk.remoteIsFile ==>
      (t.result == Err(UnsupportedSource(remote)) <==> !Contains(Lower(remote), "http"))
    ensures t.result.Err? && t.result.error.UnsupportedSource? ==> t.steps == []
    ensures !disk.localIsFile && !disk.remoteIsFile && Contains(Lower(remote), "http") && disk.stagingIsFile ==>
      t == Transfer(Ok(local), [Move(StagingPath(remote), local)])
    ensures !disk.localIsFile && !disk.remoteIsFile && Contains(Lower(remote), "http") && !disk.stagingIsFile ==>
      t == FetchInto(remote, local, disk.localIsDir, GetRequest(remote, agent, outcomes))
    ensures t.result.Ok? && t.result.value != local ==> disk.localIsDir && Fetch(remote) in t.steps
    ensures t.result.Ok? && t.steps != [] ==>
      t.steps[|t.steps| - 1] == Copy(remote, local) || t.steps[|t.steps| - 1] == Move(StagingPath(remote), t.result.value)
  {
    if disk.localIsFile then Transfer(Ok(local), [])
    else if disk.remoteIsFile then Transfer(Ok(local), [Copy(remote, local)])
    else if !Contains(Lower(remote), "http") then Transfer(Err(UnsupportedSource(remote)), [])
    else if disk.stagingIsFile then Transfer(Ok(local), [Move(StagingPath(remote), local)])
    else FetchInto(remote, local, disk.localIsDir, GetRequest(remote, agent, outcomes))
  }

  /**
   * The `Content-Disposition` filename matters only when the destination is
   * a directory: then the file lands under that name inside it, otherwise at
   * `local_path` itself. At the `tmp` directory nothing can be written.
   */
  lemma DispositionOnlyNamesDirectoryTargets(remote: string, local: string, localIsDir: bool, exchange: Http.Exchange)
    requires Http.IsOk(exchange.response)
    ensures !StagingIsTmpDir(remote) && localIsDir ==>
      FetchInto(remote, local, localIsDir, Ok(exchange)).result == Ok(Join(local, FinalName(remote, exchange.response)))
    ensures !StagingIsTmpDir(remote) && !localIsDir ==> FetchInto(remote, local, localIsDir, Ok(exchange)).result == Ok(local)
    ensures StagingIsTmpDir(remote) ==>
      FetchInto(remote, local, localIsDir, Ok(exchange)).result == Err(StagingIsDirectory(StagingPath(remote)))
  {
  }

  /**
   * A response that is not ok writes nothing. Moving the staging file then
   * fails, except when the staging path is the `tmp` directory: that whole
   * directory is moved to `local_path`, which is returned as if downloaded.
   */
  lemma NotOkResponseLeavesNoStaging(remote: string, local: string, localIsDir: bool, exchange: Http.Exchange)
    requires !Http.IsOk(exchange.response)
    // nothing is written; the move runs all the same
    ensures FetchInto(remote, local, localIsDir, Ok(exchange)).steps == [Fetch(remote), Move(StagingPath(remote), local)]
    ensures !StagingIsTmpDir(remote) ==>
      FetchInto(remote, local, localIsDir, Ok(exchange)).result == Err(StagingMissing(StagingPath(remote)))
    ensures StagingIsTmpDir(remote) ==>
      FetchInto(remote, local, localIsDir, Ok(exchange)).result == Ok(local) && StagingPath(remote) == TmpDir + "/"
  {
    if StagingIsTmpDir(remote) {
      StagingAtTmpDir(remote);
    }
  }

  /** With an empty basename the staging path is `tmp/`, the directory itself. */
  lemma StagingAtTmpDir(remote: string)
    requires StagingIsTmpDir(remote)
    ensures StagingPath(remote) == TmpDir + "/"
  {
    StagingPathInTmp(remote);
    var b := Basename(remote);
    assert TmpDir + "/" + b == TmpDir + "/";
  }

  /**
   * A concrete case: `http://example.com/` answered 404 on every attempt
   * "downloads" successfully, by moving `tmp/` to the destination.
   */
  lemma NotOkUrlWithoutBasenameSucceeds(local: string, localIsDir: bool, agent: string)
    ensures var notFound := Http.Responded(Http.Response(404, None));
      Download("http://example.com/", local, Disk(false, false, false, localIsDir), agent, [notFound, notFound, notFound])
      == Transfer(Ok(local), [Fetch("http://example.com/"), Move(TmpDir + "/", local)])
  {
    var remote := "http://example.com/";
    var notFound := Http.Responded(Http.Response(404, None));
    var outcomes := [notFound, notFound, notFound];
    ExampleUrlShape();
    var reply := GetRequest(remote, agent, outcomes);
    GetWithoutQueryPrepares(remote, agent);
    assert reply.Ok?;
    assert !Http.IsOk(reply.value.response);
    NotOkResponseLeavesNoStaging(remote, local, localIsDir, reply.value);
  }

  /** `http://example.com/` names the http scheme, has no query and no basename. */
  lemma ExampleUrlShape()
    ensures Contains(Lower("http://example.com/"), "http")
    ensures '?' !in "http://example.com/"
    ensures Basename("http://example.com/") == ""
  {
    var remote := "http://example.com/";
    assert Lower(remote)[..4] == "http";
    RFindAt(remote, '/', |remote| - 1);
  }

  /** A reference without `?` always prepares as a plain GET. */
  lemma GetWithoutQueryPrepares(remote: string, agent: string)
    requires '?' !in remote
    ensures Http.Prepare(remote, "GET", None, Http.NoBody, false, map[], agent).Ok?
  {
  }

  datatype UploadRun = UploadRun(result: Option<string>, copied: Option<(string, string)>)

  /** `upload(local_path, remoting_path)`: a copy, returning the destination, unless the paths are equal (then `None`). */
  function Upload(local: string, remote: string): (r: UploadRun)
    ensures r.result.Some? <==> local != remote
    ensures r.result.Some? ==> r.result.value == remote && r.copied == Some((local, remote))
    ensures r.result.None? ==> r.copied.None?
  {
    if remote != local then UploadRun(Some(remote), Some((local, remote))) else UploadRun(None, None)
  }

  /** `upload_content(remoting_path, content)`: the content is written at the path, which is returned. */
  function UploadContent(remote: string, content: seq<bv8>): (string, seq<bv8>) {
    (remote, content)
  }

  /** `preview_url(remoting_path)`: the reference itself. */
  function PreviewUrl(remote: string): string {
    remote
  }

  /**
   * On this backend a reference is its own preview URL, and an uploaded file
   * downloads back by a local copy: `download(preview_url(upload(a, b)), c)`
   * copies `b` to `c`.
   */
  lemma UploadThenDownloadCopiesBack(
    local: string, remote: string, target: string, disk: Disk, agent: string, outcomes: seq<Http.Attempt>)
    requires Http.MaxAttempts <= |outcomes|
    requires local != remote
    requires !disk.localIsFile && disk.remoteIsFile
    ensures var ref := PreviewUrl(Upload(local, remote).result.value);
      Download(ref, target, disk, agent, outcomes) == Transfer(Ok(target), [Copy(remote, target)])
    // the file the download copies is the one the upload wrote
    ensures var ref := PreviewUrl(Upload(local, remote).result.value);
      Download(ref, target, disk, agent, outcomes).steps[0].src == Upload(local, remote).copied.value.1
  {
  }
}

=== FILE: results.dfy ===
/** Option and Result values standing in for Python's `None` returns and raised exceptions. */
module Results {

  datatype Option<+T> = None | Some(value: T)

  /** `Ok` is a normal return; `Err` is an exception leaving the call. */
  datatype Result<+T, +E> = Ok(value: T) | Err(error: E) {

    predicate IsFailure() {
      Err?
    }

    function PropagateFailure<U>(): Result<U, E>
      requires Err?
    {
      Err(error)
    }

    function Extract(): T
      requires Ok?
    {
      value
    }
  }
}

=== FILE: storage_helpers.dfy ===
/**
 * The small pure helpers of `FileStorage`: `get_keyname`, `top_dir`,
 * `mmie`, and the worker cap and executor choice of `multi_upload` /
 * `multi_download`.
 */
module StorageHelpers {
  import opened Results
  import opened Strings
  import opened PosixPath

  /** `get_keyname(remoting_path, bucket_name)`: drop the bucket prefix and any `/` after it. */
  function GetKeyname(remote: string, bucket: string): (k: string)
    ensures !StartsWith(remote, bucket) ==> k == remote
    ensures StartsWith(remote, bucket) ==>
      && |bucket| + |k| <= |remote|
      && EndsWith(remote, k)
      && (forall i :: |bucket| <= i < |remote| - |k| ==> remote[i] == '/')
      && (|k| > 0 ==> k[0] != '/')
  {
    if StartsWith(remote, bucket) then
      StripAfter(remote, |bucket|);
      LStrip(remote[|bucket|..], {'/'})
    else remote
  }

  lemma StripAfter(s: string, n: nat)
    requires n <= |s|
    ensures var k := LStrip(s[n..], {'/'});
      && n + |k| <= |s|
      && EndsWith(s, k)
      && (forall i :: n <= i < |s| - |k| ==> s[i] == '/')
  {
    var rest := s[n..];
    var k := LStrip(rest, {'/'});
    assert k == rest[|rest| - |k|..] == s[|s| - |k|..];
    forall i | n <= i < |s| - |k|
      ensures s[i] == '/'
    {
      assert s[i] == rest[i - n];
    }
  }

  /** An object key stored under a bucket comes back from its full path. */
  lemma KeynameRoundTrip(bucket: string, key: string)
    requires key == "" || key[0] != '/'
    ensures GetKeyname(bucket + "/" + key, bucket) == key
    ensures GetKeyname(bucket + key, bucket) == key
  {
    var p := bucket + "/" + key;
    assert p[..|bucket|] == bucket;
    assert p[|bucket|] == '/';
    assert p[|p| - |key|..] == key;
    var q := bucket + key;
    assert q[..|bucket|] == bucket;
    assert q[|q| - |key|..] == key;
  }

  /** `top_dir(p)`: the first component of `p` once leading and trailing `/` are stripped. */
  function TopDir(p: string): (d: string)
    ensures '/' !in d
    ensures StartsWith(Strip(p, {'/'}), d)
    ensures |d| < |Strip(p, {'/'})| ==> Strip(p, {'/'})[|d|] == '/'
  {
    var s := Strip(p, {'/'});
    var parts := Split(s, '/');
    if '/' in s then
      assert s[..|parts[0]|] == parts[0];
      parts[0]
    else
      assert s[..|s|] == s;
      parts[0]
  }

  /** The top directory of a relative path `a/rest` is `a`, whatever follows. */
  lemma TopDirOfChild(a: string, rest: string)
    requires a != "" && '/' !in a
    ensures TopDir(a + "/" + rest) == a
  {
    var p := a + "/" + rest;
    assert p[0] == a[0];
    var l := LStrip(p, {'/'});
    assert l == p;
    assert forall k :: 0 <= k < |a| ==> p[k] == a[k];
    var s := RStrip(l, {'/'});
    assert l[|a| - 1] == a[|a| - 1] && a[|a| - 1] !in {'/'};
    assert |s| >= |a|;
    assert s[..|a|] == a;
    assert Strip(p, {'/'}) == s;
    if |s| == |a| {
      assert s == a;
    } else {
      assert s[|a|] == l[|a|] == '/';
      assert s[..Find(s, '/')] == a;
    }
  }

  /** The content types `mmie` knows, keyed by lower-case extension. */
  const MimeTypes: map<string, string> := map[
    ".png" := "image/png",
    ".tar" := "application/x-tar",
    ".txt" := "text/plain",
    ".zip" := "application/zip",
    ".json" := "application/json",
    ".ico" := "image/vnd.microsoft.icon",
    ".jpeg" := "image/jpeg",
    ".jpg" := "image/jpeg"
  ]

  /** `mmie(p)`: the content type of the lower-cased extension, `text/plain` when unknown. */
  function Mmie(p: string): (m: string)
    ensures m in MimeTypes.Values
    ensures Lower(Ext(p)) in MimeTypes ==> m == MimeTypes[Lower(Ext(p))]
    ensures Lower(Ext(p)) !in MimeTypes ==> m == "text/plain"
  {
    var e := Lower(Ext(p));
    if e in MimeTypes then MimeTypes[e] else MimeTypes[".txt"]
  }

  lemma LowerIdempotent(s: string)
    ensures Lower(Lower(s)) == Lower(s)
  {
  }

  lemma AllDotsLower(s: string)
    ensures AllDots(Lower(s)) <==> AllDots(s)
  {
    assert forall k :: 0 <= k < |s| ==> (Lower(s)[k] == '.' <==> s[k] == '.');
  }

  lemma ExtStartLower(p: string)
    ensures ExtStart(Lower(p)) == ExtStart(p)
  {
    var q := Lower(p);
    RFindLower(p, '/');
    RFindLower(p, '.');
    var sep := RFind(p, '/');
    var dot := RFind(p, '.');
    if dot > sep {
      LowerSlice(p, sep + 1, dot);
      AllDotsLower(p[sep + 1..dot]);
    }
  }

  /** Lower-casing a path lower-cases its extension and moves nothing else. */
  lemma ExtLower(p: string)
    ensures Ext(Lower(p)) == Lower(Ext(p))
  {
    ExtStartLower(p);
    var i := ExtStart(p);
    if i >= 0 {
      LowerSlice(p, i, |p|);
      assert Ext(Lower(p)) == Lower(p)[i..];
    }
  }

  /** `mmie` ignores case: names equal up to case get the same type. */
  lemma MmieCaseInsensitive(p: string, q: string)
    requires Lower(p) == Lower(q)
    ensures Mmie(p) == Mmie(q)
  {
    ExtLower(p);
    ExtLower(q);
    LowerIdempotent(Ext(p));
    LowerIdempotent(Ext(q));
  }

  /** A file `stem + e` gets the type of its lower-cased extension `e`, or `text/plain`. */
  lemma MmieOfName(stem: string, e: string)
    requires |stem| > 0 && stem[|stem| - 1] != '.' && stem[|stem| - 1] != '/'
    requires IsExtension(e)
    ensures Lower(e) in MimeTypes ==> Mmie(stem + e) == MimeTypes[Lower(e)]
    ensures Lower(e) !in MimeTypes ==> Mmie(stem + e) == "text/plain"
  {
    ExtOfName(stem, e);
  }

  /** `min(cpu_count(), 4)` */
  function WorkerCount(cpus: nat): (w: nat)
    ensures w <= 4 && w <= cpus
    ensures w == cpus || w == 4
  {
    if cpus <= 4 then cpus else 4
  }

  /** What each worker runs: `upload`, `download`, or `lock_download` with the given expiry and lock kind. */
  datatype Executor =
    | Upload
    | Download
    | LockedDownload(expire: int, flocker: bool)

  /** The work `multi_upload` / `multi_download` hands to the thread pool. */
  datatype Plan = Plan(pairs: seq<(string, string)>, executor: Executor, workers: nat)

  /** `multi_upload(pairs)`: nothing for an empty list. */
  function MultiUpload(pairs: seq<(string, string)>, cpus: nat): (p: Option<Plan>)
    ensures p.None? <==> pairs == []
    ensures p.Some? ==> p.value.pairs == pairs && p.value.executor == Upload
    ensures p.Some? ==> p.value.workers == WorkerCount(cpus)
  {
    if pairs == [] then None else Some(Plan(pairs, Upload, WorkerCount(cpus)))
  }

  /** `multi_download(pairs, with_locker, locker_exp, flocker)`: locking only when asked; nothing for an empty list. */
  function MultiDownload(pairs: seq<(string, string)>, withLocker: bool, lockerExp: int, flocker: bool, cpus: nat): (p: Option<Plan>)
    ensures p.None? <==> pairs == []
    ensures p.Some? ==> p.value.pairs == pairs && p.value.workers == WorkerCount(cpus)
    ensures p.Some? ==> (p.value.executor.LockedDownload? <==> withLocker)
    ensures p.Some? ==> (withLocker ==> p.value.executor == LockedDownload(lockerExp, flocker))
    ensures p.Some? ==> p.value.executor != Upload
  {
    if pairs == [] then None
    else
      var executor := if withLocker then LockedDownload(lockerExp, flocker) else Download;
      Some(Plan(pairs, executor, WorkerCount(cpus)))
  }

}

=== FILE: strings.dfy ===
/**
 * The Python `str` operations the storage layer relies on, over `seq<char>`.
 * Case mapping is ASCII-only; `Whitespace` is the set of characters for which
 * Python's `str.isspace()` holds.
 */
module Strings {

  predicate StartsWith(s: string, prefix: string) {
    |prefix| <= |s| && s[..|prefix|] == prefix
  }

  predicate EndsWith(s: string, suffix: string) {
    |suffix| <= |s| && s[|s| - |suffix|..] == suffix
  }

  /** `sub in s` */
  predicate Contains(s: string, sub: string)
    decreases |s|
  {
    StartsWith(s, sub) || (|s| > 0 && Contains(s[1..], sub))
  }

  /** `s.find(c)`: the index of the first `c`, or -1. */
  function Find(s: string, c: char): (i: int)
    ensures -1 <= i < |s|
    ensures i == -1 <==> c !in s
    ensures 0 <= i ==> s[i] == c && c !in s[..i]
  {
    if |s| == 0 then -1
    else if s[0] == c then 0
    else
      var j := Find(s[1..], c);
      if j < 0 then -1
      else
        assert s[..j + 1] == [s[0]] + s[1..][..j];
        j + 1
  }

  /** `s.rfind(c)`: the index of the last `c`, or -1. */
  function RFind(s: string, c: char): (i: int)
    ensures -1 <= i < |s|
    ensures i == -1 <==> c !in s
    ensures 0 <= i ==> s[i] == c && c !in s[i + 1..]
    decreases |s|
  {
    if |s| == 0 then -1
    else if s[|s| - 1] == c then |s| - 1
    else
      var init := s[..|s| - 1];
      var j := RFind(init, c);
      RFindStep(s, c, j);
      j
  }

  lemma RFindStep(s: string, c: char, j: int)
    requires |s| > 0 && s[|s| - 1] != c
    requires -1 <= j < |s| - 1
    requires j == -1 <==> c !in s[..|s| - 1]
    requires 0 <= j ==> s[j] == c && c !in s[..|s| - 1][j + 1..]
    ensures j == -1 <==> c !in s
    ensures 0 <= j ==> c !in s[j + 1..]
  {
    var init := s[..|s| - 1];
    if j == -1 {
      forall k | 0 <= k < |s|
        ensures s[k] != c
      {
        if k < |s| - 1 {
          assert s[k] == init[k];
        }
      }
    } else {
      assert s[j] == c;
      forall k | j + 1 <= k < |s|
        ensures s[k] != c
      {
        if k < |s| - 1 {
          assert s[k] == init[j + 1..][k - j - 1];
        }
      }
    }
  }

  /** `sep.join(parts)` for a one-character separator. */
  function JoinWith(parts: seq<string>, sep: char): string
  {
    if |parts| == 0 then ""
    else if |parts| == 1 then parts[0]
    else parts[0] + [sep] + JoinWith(parts[1..], sep)
  }

  /** `s.split(sep)` for a one-character separator: every piece, empty ones included. */
  function Split(s: string, sep: char): (parts: seq<string>)
    ensures |parts| >= 1
    ensures forall k :: 0 <= k < |parts| ==> sep !in parts[k]
    ensures sep in s <==> |parts| >= 2
    ensures sep !in s ==> parts == [s]
    ensures sep in s ==> parts[0] == s[..Find(s, sep)]
    decreases |s|
  {
    var i := Find(s, sep);
    if i < 0 then [s] else [s[..i]] + Split(s[i + 1..], sep)
  }

  /** A position holding `c` with no earlier `c` is where `Find` stops. */
  lemma FindAt(s: string, c: char, i: nat)
    requires i < |s| && s[i] == c && c !in s[..i]
    ensures Find(s, c) == i
  {
    assert s[..i + 1][i] == c;
    var j := Find(s, c);
    assert 0 <= j;
    forall k | 0 <= k < i
      ensures s[k] != c
    {
      assert s[..i][k] == s[k];
    }
    forall k | 0 <= k < j
      ensures s[k] != c
    {
      assert s[..j][k] == s[k];
    }
  }

  /** The first two pieces of a split that cut somewhere are followed by the end of the string or by a further separator. */
  lemma {:induction false} SplitFirstTwo(s: string, sep: char)
    requires sep in s
    ensures var parts := Split(s, sep);
      var n := |parts[0]| + |parts[1]| + 1;
      && n <= |s| && s[..n] == parts[0] + [sep] + parts[1]
      && (n < |s| ==> s[n] == sep)
  {
    var i := Find(s, sep);
    var t := s[i + 1..];
    var parts := Split(s, sep);
    var j := Find(t, sep);
    var m := if j < 0 then |t| else j;
    assert parts[0] == s[..i] && parts[1] == t[..m] by {
      SplitSecond(s, sep);
    }
    assert |parts[0]| + |parts[1]| + 1 == i + 1 + m <= |s|;
    assert s[..i + 1 + m] == parts[0] + [sep] + parts[1] by {
      SliceAround(s, i, m);
    }
    assert i + 1 + m < |s| ==> s[i + 1 + m] == sep by {
      if i + 1 + m < |s| {
        assert s[i + 1 + m] == t[m];
      }
    }
  }

  /** The second piece of a split is the first piece of what follows the first separator. */
  lemma {:induction false} SplitSecond(s: string, sep: char)
    requires sep in s
    ensures Split(s, sep)[1] == Split(s[Find(s, sep) + 1..], sep)[0]
  {
    var i := Find(s, sep);
    var rest := Split(s[i + 1..], sep);
    assert Split(s, sep) == [s[..i]] + rest;
  }

  lemma SliceAround(s: string, i: nat, m: nat)
    requires i + 1 + m <= |s|
    ensures s[..i + 1 + m] == s[..i] + [s[i]] + s[i + 1..][..m]
  {
    assert s[i + 1..][..m] == s[i + 1..i + 1 + m];
    assert s[..i + 1 + m] == s[..i + 1] + s[i + 1..i + 1 + m];
  }

  /** Joining the pieces of a split with the same separator gives back the string. */
  lemma {:induction false} JoinSplit(s: string, sep: char)
    ensures JoinWith(Split(s, sep), sep) == s
    decreases |s|
  {
    var i := Find(s, sep);
    if i >= 0 {
      var rest := s[i + 1..];
      var tail := Split(rest, sep);
      JoinSplit(rest, sep);
      JoinCons(s[..i], tail, sep);
      CutAt(s, i);
    }
  }

  /** Splitting a join of separator-free pieces gives back the pieces. */
  lemma {:induction false} SplitJoin(parts: seq<string>, sep: char)
    requires |parts| >= 1
    requires forall k :: 0 <= k < |parts| ==> sep !in parts[k]
    ensures Split(JoinWith(parts, sep), sep) == parts
    decreases |parts|
  {
    if |parts| > 1 {
      var rest := parts[1..];
      var s := JoinWith(parts, sep);
      assert s == parts[0] + [sep] + JoinWith(rest, sep);
      assert s[..|parts[0]|] == parts[0];
      assert s[|parts[0]| + 1..] == JoinWith(rest, sep);
      FindAt(s, sep, |parts[0]|);
      SplitJoin(rest, sep);
      assert parts == [parts[0]] + rest;
    }
  }

  /** A join holds a character other than the separator only if some piece does. */
  lemma {:induction false} JoinWithAvoids(parts: seq<string>, sep: char, c: char)
    requires c != sep
    requires forall k :: 0 <= k < |parts| ==> c !in parts[k]
    ensures c !in JoinWith(parts, sep)
    decreases |parts|
  {
    if |parts| > 1 {
      JoinWithAvoids(parts[1..], sep, c);
    }
  }

  lemma JoinCons(head: string, tail: seq<string>, sep: char)
    requires |tail| >= 1
    ensures JoinWith([head] + tail, sep) == head + [sep] + JoinWith(tail, sep)
  {
    assert ([head] + tail)[1..] == tail;
  }

  lemma CutAt(s: string, i: int)
    requires 0 <= i < |s|
    ensures s == s[..i] + [s[i]] + s[i + 1..]
  {
  }

  /** `s.split(sep, maxsplit=1)` */
  function SplitOnce(s: string, sep: char): (parts: seq<string>)
    ensures 1 <= |parts| <= 2
    ensures |parts| == 2 <==> sep in s
    ensures sep !in parts[0]
    ensures JoinWith(parts, sep) == s
  {
    var i := Find(s, sep);
    if i < 0 then [s]
    else
      assert s == s[..i] + [sep] + s[i + 1..];
      [s[..i], s[i + 1..]]
  }

  /** `s` with every character of `chars` deleted, wherever it occurs. */
  function Without(s: string, chars: set<char>): (r: string)
    ensures |r| <= |s|
    ensures forall c :: c in r <==> c in s && c !in chars
    ensures (forall k :: 0 <= k < |s| ==> s[k] !in chars) ==> r == s
    decreases |s|
  {
    if |s| == 0 then ""
    else
      var rest := Without(s[1..], chars);
      assert s == [s[0]] + s[1..];
      if s[0] in chars then rest else [s[0]] + rest
  }

  /** `s.lstrip(chars)` */
  function LStrip(s: string, chars: set<char>): (r: string)
    ensures |r| <= |s| && r == s[|s| - |r|..]
    ensures |r| > 0 ==> r[0] !in chars
    ensures forall k :: 0 <= k < |s| - |r| ==> s[k] in chars
    decreases |s|
  {
    if |s| > 0 && s[0] in chars then LStrip(s[1..], chars) else s
  }

  /** `s.rstrip(chars)` */
  function RStrip(s: string, chars: set<char>): (r: string)
    ensures |r| <= |s| && r == s[..|r|]
    ensures |r| > 0 ==> r[|r| - 1] !in chars
    ensures forall k :: |r| <= k < |s| ==> s[k] in chars
    decreases |s|
  {
    if |s| > 0 && s[|s| - 1] in chars then RStrip(s[..|s| - 1], chars) else s
  }

  /** How many characters `s.strip(chars)` removes from the front of `s`. */
  function StripStart(s: string, chars: set<char>): (i: nat)
    ensures i <= |s|
    ensures forall k :: 0 <= k < i ==> s[k] in chars
    ensures i < |s| ==> s[i] !in chars
  {
    |s| - |LStrip(s, chars)|
  }

  /** `s.strip(chars)` */
  function Strip(s: string, chars: set<char>): (r: string)
    ensures |r| <= |s|
    ensures |r| > 0 ==> r[0] !in chars && r[|r| - 1] !in chars
  {
    RStrip(LStrip(s, chars), chars)
  }

  /** Stripping brings in no character the string did not hold. */
  lemma StripAddsNothing(s: string, chars: set<char>, ch: char)
    requires ch !in s
    ensures ch !in Strip(s, chars)
  {
    StripIsSlice(s, chars);
  }

  /** Stripping keeps every character that is not a stripped one. */
  lemma StripKeeps(s: string, chars: set<char>, ch: char)
    requires ch in s && ch !in chars
    ensures ch in Strip(s, chars)
  {
    LStripKeeps(s, chars);
    RStripKeeps(LStrip(s, chars), chars);
  }

  /**
   * What `s.strip(chars)` leaves is a slice of `s`: everything before it
   * and everything after it is a stripped character.
   */
  lemma {:induction false} StripIsSlice(s: string, chars: set<char>)
    ensures var r, i := Strip(s, chars), StripStart(s, chars);
      && i + |r| <= |s|
      && r == s[i..i + |r|]
      && forall k :: i + |r| <= k < |s| ==> s[k] in chars
  {
    var l := LStrip(s, chars);
    var r := RStrip(l, chars);
    var i := |s| - |l|;
    assert Strip(s, chars) == r && StripStart(s, chars) == i;
    SliceOfSuffix(s, l, r, i, chars);
  }

  lemma SliceOfSuffix(s: string, l: string, r: string, i: nat, chars: set<char>)
    requires i <= |s| && l == s[i..]
    requires |r| <= |l| && r == l[..|r|]
    requires forall k :: |r| <= k < |l| ==> l[k] in chars
    ensures i + |r| <= |s| && r == s[i..i + |r|]
    ensures forall k :: i + |r| <= k < |s| ==> s[k] in chars
  {
    forall k | i + |r| <= k < |s|
      ensures s[k] in chars
    {
      assert s[k] == l[k - i];
    }
  }

  /** Stripping a string that neither starts nor ends with a stripped character changes nothing. */
  lemma StripUnchanged(s: string, chars: set<char>)
    requires |s| > 0 ==> s[0] !in chars && s[|s| - 1] !in chars
    ensures Strip(s, chars) == s
  {
    var r := Strip(s, chars);
    StripIsSlice(s, chars);
    if |s| > 0 {
      assert StripStart(s, chars) == 0;
    }
  }

  lemma LStripKeeps(s: string, chars: set<char>)
    ensures forall ch :: ch in s && ch !in chars ==> ch in LStrip(s, chars)
  {
    var l := LStrip(s, chars);
    forall ch | ch in s && ch !in chars
      ensures ch in l
    {
      var k :| 0 <= k < |s| && s[k] == ch;
      var i := |s| - |l|;
      assert i <= k;
      assert l[k - i] == s[i..][k - i];
    }
  }

  lemma RStripKeeps(s: string, chars: set<char>)
    ensures forall ch :: ch in s && ch !in chars ==> ch in RStrip(s, chars)
  {
    var r := RStrip(s, chars);
    forall ch | ch in s && ch !in chars
      ensures ch in r
    {
      var k :| 0 <= k < |s| && s[k] == ch;
      assert s[k] == r[k];
    }
  }

  /** The characters for which Python's `str.isspace()` holds (what `strip()` removes). */
  const Whitespace: set<char> := {
    '\t', '\n', '\U{0B}', '\U{0C}', '\r', '\U{1C}', '\U{1D}', '\U{1E}', '\U{1F}', ' ',
    '\U{85}', '\U{A0}', '\U{1680}', '\U{2000}', '\U{2001}', '\U{2002}', '\U{2003}',
    '\U{2004}', '\U{2005}', '\U{2006}', '\U{2007}', '\U{2008}', '\U{2009}', '\U{200A}',
    '\U{2028}', '\U{2029}', '\U{202F}', '\U{205F}', '\U{3000}'
  }

  function LowerChar(c: char): char {
    if 'A' <= c <= 'Z' then (c as int + 32) as char else c
  }

  function UpperChar(c: char): char {
    if 'a' <= c <= 'z' then (c as int - 32) as char else c
  }

  /** `s.lower()` on ASCII letters */
  function Lower(s: string): (r: string)
    ensures |r| == |s|
    ensures forall k :: 0 <= k < |s| ==> r[k] == LowerChar(s[k])
  {
    seq(|s|, k requires 0 <= k < |s| => LowerChar(s[k]))
  }

  /** `s.upper()` on ASCII letters */
  function Upper(s: string): (r: string)
    ensures |r| == |s|
    ensures forall k :: 0 <= k < |s| ==> r[k] == UpperChar(s[k])
  {
    seq(|s|, k requires 0 <= k < |s| => UpperChar(s[k]))
  }

  /** Lower-casing commutes with taking a slice. */
  lemma LowerSlice(s: string, i: int, j: int)
    requires 0 <= i <= j <= |s|
    ensures Lower(s[i..j]) == Lower(s)[i..j]
  {
  }

  /** Lower-casing never moves a character that is not an upper-case letter. */
  lemma {:induction false} RFindLower(s: string, c: char)
    requires !('A' <= c <= 'Z') && !('a' <= c <= 'z')
    ensures RFind(Lower(s), c) == RFind(s, c)
    decreases |s|
  {
    if |s| > 0 {
      assert Lower(s)[..|s| - 1] == Lower(s[..|s| - 1]);
      RFindLower(s[..|s| - 1], c);
    }
  }

  /** The last occurrence is the one with no further occurrence after it. */
  lemma RFindAt(s: string, c: char, i: int)
    requires 0 <= i < |s| && s[i] == c && c !in s[i + 1..]
    ensures RFind(s, c) == i
  {
  }
}

=== FILE: user_agents.dfy ===
/**
 * The pool of User-Agent strings from which `http_request` picks one when the
 * caller supplied none.
 *
 * The source writes sixteen string literals, but the first line lacks its
 * trailing comma, so Python concatenates the first two literals into one
 * element and the list holds fifteen. `PoolAsWritten` is that list; `Pool` is
 * the sixteen agents the literals spell out. `random.choice` is not modelled:
 * `http_request` is given the drawn agent, and `DrawnAgentIsSent` says a draw
 * from `Pool` is what reaches the request.
 */
module UserAgents {
  import opened Results
  import opened Http

  /** The sixteen agent strings, one per source line, in order. */
  const Written: seq<string> := [
    "Mozilla/5.0 (Windows NT 6.1; WOW64) AppleWebKit/537.1 (KHTML, like Gecko) Chrome/22.0.1207.1 Safari/537.1",
    "Mozilla/5.0 (Windows NT 6.1; WOW64) AppleWebKit/536.6 (KHTML, like Gecko) Chrome/20.0.1092.0 Safari/536.6",
    "Mozilla/5.0 (Windows NT 6.2) AppleWebKit/536.6 (KHTML, like Gecko) Chrome/20.0.1090.0 Safari/536.6",
    "Mozilla/5.0 (Windows NT 6.2; WOW64) AppleWebKit/537.1 (KHTML, like Gecko) Chrome/19.77.34.5 Safari/537.1",
    "Mozilla/5.0 (Windows NT 6.0) AppleWebKit/536.5 (KHTML, like Gecko) Chrome/19.0.1084.36 Safari/536.5",
    "Mozilla/5.0 (Windows NT 6.1; WOW64) AppleWebKit/536.3 (KHTML, like Gecko) Chrome/19.0.1063.0 Safari/536.3",
    "Mozilla/5.0 (Windows NT 5.1) AppleWebKit/536.3 (KHTML, like Gecko) Chrome/19.0.1063.0 Safari/536.3",
    "Mozilla/5.0 (Windows NT 6.2) AppleWebKit/536.3 (KHTML, like Gecko) Chrome/19.0.1062.0 Safari/536.3",
    "Mozilla/5.0 (Windows NT 6.1; WOW64) AppleWebKit/536.3 (KHTML, like Gecko) Chrome/19.0.1062.0 Safari/536.3",
    "Mozilla/5.0 (Windows NT 6.2) AppleWebKit/536.3 (KHTML, like Gecko) Chrome/19.0.1061.1 Safari/536.3",
    "Mozilla/5.0 (Windows NT 6.1; WOW64) AppleWebKit/536.3 (KHTML, like Gecko) Chrome/19.0.1061.1 Safari/536.3",
    "Mozilla/5.0 (Windows NT 6.1) AppleWebKit/536.3 (KHTML, like Gecko) Chrome/19.0.1061.1 Safari/536.3",
    "Mozilla/5.0 (Windows NT 6.2) AppleWebKit/536.3 (KHTML, like Gecko) Chrome/19.0.1061.0 Safari/536.3",
    "Mozilla/5.0 (Windows NT 6.2; WOW64) AppleWebKit/535.24 (KHTML, like Gecko) Chrome/19.0.1055.1 Safari/535.24",
    "Mozilla/5.0 (Macintosh; Intel Mac OS X 11_1_0) AppleWebKit/537.36 (KHTML, like Gecko) Chrome/89.0.4389.90 Safari/537.36",
    "Mozilla/5.0 (Windows NT 6.1; Win64; x64) AppleWebKit/537.36 (KHTML, like Gecko) Chrome/57.0.2987.133 Safari/537.36"
  ]

  /** The list as Python builds it: the first two literals fuse into one element. */
  const PoolAsWritten: seq<string> := [Written[0] + Written[1]] + Written[2..]

  /** The intended pool: one element per written agent. */
  const Pool: seq<string> := Written

  /**
   * As written, the pool has fifteen entries; its first entry is not any of
   * the written agents, and the agent on the second line can never be chosen.
   */
  lemma AsWrittenFusesFirstTwo()
    ensures |PoolAsWritten| == 15
    ensures PoolAsWritten[0] !in Written
    ensures Written[1] !in PoolAsWritten
  {
    FusedEntryIsLongest();
    SecondAgentIsDistinct();
  }

  lemma FusedEntryIsLongest()
    ensures forall i :: 0 <= i < |Written| ==> |Written[i]| < |PoolAsWritten[0]|
  {
  }

  lemma SecondAgentIsDistinct()
    ensures forall i :: 2 <= i < |Written| ==> Written[i] != Written[1]
  {
  }

  /** The intended pool offers sixteen distinct agents, each written agent at its own index. */
  lemma PoolOffersEachAgent()
    ensures |Pool| == |Written| == 16
    ensures forall i :: 0 <= i < |Written| ==> Pool[i] == Written[i]
    ensures forall i, j :: 0 <= i < j < |Pool| ==> Pool[i] != Pool[j]
  {
  }

  /** Without a caller-supplied User-Agent, the agent drawn from the pool is the one sent. */
  lemma DrawnAgentIsSent(i: nat, headers: Option<Headers>)
    requires i < |Pool|
    requires headers.None? || "User-Agent" !in headers.value
    ensures WithUserAgent(MergeHeaders(headers), Pool[i])["User-Agent"] == Pool[i]
  {
    UserAgentNotDefault();
  }
}
